=== FILE: README.md ===
# Tomja: the API client, its endpoints and the app's state logic, in Dafny

Tomja is an iOS app for electronic shelf labels ("devices") shared by the
members of a home. This project models its core in Dafny and proves
properties of the model. It covers:

- the API package's `Endpoint` protocol and its four conforming enums
  (`Devices`, `Users`, `Homes`, `Messages`), each giving a path, query items,
  an optional JSON body and a canned mock value;
- `APIClient`, which builds a URL and a request from an endpoint, sends it once
  and turns the outcome into a `Bool` or a typed entity. This includes its date
  handling: requests are encoded with `yyyy-MM-dd'T'HH:mm:ss`, and responses are
  decoded with `yyyy-MM-dd'T'HH:mm:ss'Z'` first, then `yyyy-MM-dd'T'HH:mm:ss.SSS'Z'`;
- `KeychainStore`, which keeps the API key as one generic-password item;
- `RegisterDeviceSheet`, which turns a scanned barcode into a BLE address, picks
  the panel size and runs the form validation before posting the registration;
- `OTPPassView`, the six-cell one-time-code field;
- `PushRegistrationManager`, which reports the notification authorisation state
  and the device token to the API only when they change;
- `Image(base64JPEG:)`, which strips the data-URL prefix;
- the canvas editor's overlay state machine and geometry (clamping, normalised
  positions, the letter-boxed canvas rectangle, the transform gestures), over
  idealised reals.

Foreign code is not modelled; its answers are inputs to the model:

- URL parsing enters as an optional base URL;
- the transport is a function from request to response;
- the JSON encoder and decoder, UTF-8 decoding and base64 decoding are
  functions;
- each keychain call is its status code;
- the notification centre's setting and the API post's success are values;
- the fresh UUIDs of new canvas items are parameters.

One module per source component:

| file | module |
|---|---|
| wrappers.dfy | `Wrappers`: `Option`, `Result` |
| date_format.dfy | `DateFormat`: fixed layouts, `Match`/`Render`, the response date decoder |
| models.dfy | `Models`: the DTOs and the mock-builder defaults |
| paths.dfy | `Paths`: splitting and joining at `/` |
| endpoints.dfy | `Endpoints` |
| api_client.dfy | `ApiClient` |
| keychain.dfy | `Keychain` |
| register_device.dfy | `RegisterDevice` |
| otp.dfy | `Otp` |
| push_registration.dfy | `PushRegistration` |
| image_base64.dfy | `ImageBase64` |
| canvas_geometry.dfy | `CanvasGeometry` |
| canvas_editor.dfy | `CanvasEditor` |

`APIClient.delete` builds its request with the verb `GET`, not `DELETE`.
The model follows the code (`ApiClient.Delete`), and `ApiClient.DeleteIsGetExpect200`
proves that it behaves exactly like `getExpect200`.

## Model

| member | source | states |
|---|---|---|
| `DateFormat.LayoutFacts` | Packages/API/Sources/APIClient.swift:130-156 | Field widths of the layouts: the request layout has 19 characters, the two response layouts have 20 and 24, and the fields are 4-2-2-2-2-2 (plus 3 for milliseconds). |
| `DateFormat.MatchRender` | Packages/API/Sources/APIClient.swift:154-160 | Reading back a rendered field list with the same layout gives the fields back. |
| `DateFormat.RenderMatch` | Packages/API/Sources/APIClient.swift:154-160 | A string the layout accepts is exactly the rendering of the fields read from it. |
| `DateFormat.FormatOutgoing` | Packages/API/Sources/APIClient.swift:129-132 | A request date is written as 19 characters, with no zone suffix and no milliseconds. |
| `DateFormat.ParseWith` | Packages/API/Sources/APIClient.swift:157-159 | A date that one response layout accepts is a real calendar instant. |
| `DateFormat.DecodeDate` | Packages/API/Sources/APIClient.swift:150-163 | Every instant it decodes is a valid calendar instant and came from a 20- or 24-character string. Every failure carries "Cannot decode date string " followed by the input. |
| `DateFormat.DecodeWholeSeconds` | Packages/API/Sources/APIClient.swift:156-159 | A whole-second response date decodes to its instant, with zero milliseconds. |
| `DateFormat.DecodeMilliseconds` | Packages/API/Sources/APIClient.swift:156-159 | A millisecond response date decodes to exactly its instant. |
| `DateFormat.DecodeOnlyTwoShapes` | Packages/API/Sources/APIClient.swift:156-162 | Every accepted string is the rendering of the decoded instant in one of the two layouts. |
| `DateFormat.OutgoingNotAccepted` | Packages/API/Sources/APIClient.swift:128-162 | The client's own request date format is rejected by its own response decoder. |
| `Endpoints.Resolve` | Packages/API/Sources/Services/Endpoint.swift:18-26 | A `body` or `multipartData` that the conforming type does not define is nil; one it defines is used as defined. |
| `Endpoints.NoMultipartPayload` | Packages/API/Sources/Services/Endpoint.swift:23-25 | No shown endpoint has multipart data, so no endpoint carries both payload kinds. |
| `Endpoints.QueryItemsAlwaysEmpty` | Packages/API/Sources/Services/Devices.swift:27-29 | Every endpoint's query items are an empty list, never nil (the same holds in all four enums). |
| `Endpoints.BodyIffSubmitting` | Packages/API/Sources/Services/Devices.swift:31-39 | An endpoint has a JSON body exactly when it is `Devices.register` or `Users.create`, and the body carries that variant's arguments. |
| `Endpoints.PathIsJoinedSegments` | Packages/API/Sources/Services/Users.swift:16-25 | Each variant's path is its route segments joined by `/`. |
| `Endpoints.PathSegments` | Packages/API/Sources/Services/Devices.swift:16-25 | When no caller value contains a slash, splitting the path at `/` gives the route's segments, with each value verbatim in its place. |
| `Endpoints.SamePathSameArguments` | Packages/API/Sources/Services/Users.swift:18-21 | Two endpoints with slash-free values and the same path interpolate the same values. |
| `Endpoints.SlashInArgumentIsAmbiguous` | Packages/API/Sources/Services/Users.swift:18-19 | Values containing `/` let two different `getForHome` calls share one path. |
| `Endpoints.LeadingSlash` | Packages/API/Sources/Services/Messages.swift:14-19 | No path starts with `//`, and only `Messages.clear` starts with `/`. |
| `Endpoints.MockMatchesCallSite` | Packages/API/Sources/Services/Devices.swift:41-66 | Wherever the app decodes a response, the mock has the type that call site decodes: `[DeviceDTO]` for `my`, `DeviceDTO` for `register`, the user and home types for `Users` and `Homes`. Two variants have no decoding call site, and their mocks are their own: `delete`, whose call reads only the status code, gets an empty string, and `Messages.clear` gets an accepted message. |
| `Endpoints.MockFixtures` | Packages/API/Sources/Services/Users.swift:40-53 | The mock values: devices "A" and "B" (300 by 100), an empty string for delete, users "2" and "3", the default home, and an accepted message. |
| `ApiClient.MakeURL` | Packages/API/Sources/APIClient.swift:108-116 | URL building fails, with `invalidUrl`, exactly when the host does not parse; otherwise the URL has the endpoint's path and query items, and nil query items count as none. |
| `ApiClient.MakeURLRequest` | Packages/API/Sources/APIClient.swift:118-146 | A multipart payload wins over JSON. A JSON body and `application/json` are set only when the body encodes; otherwise no Content-Type is set. `X-API-Key` is set exactly when a non-empty key is stored, and no other headers are set. |
| `ApiClient.Prepare` | Packages/API/Sources/APIClient.swift:90-92 | A request is built exactly when the host parses, with the verb and path asked for. |
| `ApiClient.GetExpect200` | Packages/API/Sources/APIClient.swift:41-51 | It sends a GET and is true exactly when the response has HTTP status 200; every error becomes false. |
| `ApiClient.PostIgnoreResponse` | Packages/API/Sources/APIClient.swift:57-72 | It sends a POST and is true exactly when any response arrives, whatever its status. |
| `ApiClient.Delete` | Packages/API/Sources/APIClient.swift:78-88 | It sends its request with the verb GET and is true exactly when the status is 200. |
| `ApiClient.DeleteIsGetExpect200` | Packages/API/Sources/APIClient.swift:81 | `delete` and `getExpect200` send the same request and return the same answer. |
| `ApiClient.MakeEntityRequest` | Packages/API/Sources/APIClient.swift:90-106 | It sends the prepared request, or fails with `invalidUrl` when nothing can be sent. A thrown send is a transport error. On a received body, an optional `String` is the UTF-8 text or nil. A non-optional `String` is the text, and the forced cast traps when the body is not UTF-8. Any other type is the JSON decoder's value given the response date strategy, or its error as a decoding failure. |
| `ApiClient.ReceivedCallOutcome` | Packages/API/Sources/APIClient.swift:90-106 | Once a response arrives, the call succeeds exactly when the body reads as the expected type, and every failure is a forced-cast trap or a decoding failure. |
| `ApiClient.Get` | Packages/API/Sources/APIClient.swift:37-39 | A typed GET sends its request with the verb GET. |
| `ApiClient.Post` | Packages/API/Sources/APIClient.swift:53-55 | A typed POST sends its request with the verb POST. |
| `ApiClient.Put` | Packages/API/Sources/APIClient.swift:74-76 | A typed PUT sends its request with the verb PUT. |
| `ApiClient.TextBypassesDecoder` | Packages/API/Sources/APIClient.swift:101-103 | String entities never reach the JSON decoder: any two decoders give the same call. |
| `ApiClient.EmptyTextBody` | Packages/API/Sources/APIClient.swift:101-102 | An empty response body read as `String` is the empty string. |
| `ApiClient.StatusIgnoredByTypedCalls` | Packages/API/Sources/APIClient.swift:93-105 | A typed call returns the same result whatever HTTP status the response has. |
| `ApiClient.ShownEndpointRequests` | Packages/API/Sources/APIClient.swift:114-139 | For every shown endpoint, the request goes to its path with no query items, and carries JSON exactly when the endpoint has a body that encodes. |
| `ApiClient.StoredKeyIsAttached` | Packages/API/Sources/APIClient.swift:141-143 | After a non-empty key is stored successfully and read back, every request carries it in `X-API-Key`. |
| `Keychain.SetAPIKey` | Packages/API/Sources/Utils/Keychain.swift:16-46 | It succeeds exactly when the add succeeds, or the add reports a duplicate and the update succeeds. The update is tried only after a duplicate. On success the slot holds the value; on failure the store is unchanged; other items are never touched. |
| `Keychain.GetAPIKey` | Packages/API/Sources/Utils/Keychain.swift:48-63 | It returns the slot's value exactly when the lookup succeeds and the item exists; otherwise nil. |
| `Keychain.SetThenGet` | Packages/API/Sources/Utils/Keychain.swift:16-63 | A successful set followed by a successful get returns the value just set. |
| `Keychain.InsertOrUpdate` | Packages/API/Sources/Utils/Keychain.swift:27-43 | If the keychain answers coherently, an empty slot is filled by the add, and a filled slot is overwritten exactly when the update succeeds. |
| `RegisterDevice.Chunks` | Tomja/Pages/Profile/Views/RegisterDeviceSheet.swift:156-160 | The input is split into ceil(n/2) pieces of two characters each; only the last piece may have one. |
| `RegisterDevice.InsertColonsEveryTwoCharacters` | Tomja/Pages/Profile/Views/RegisterDeviceSheet.swift:152-163 | The loop collects exactly the two-character pieces, so the result is those pieces joined by colons. |
| `RegisterDevice.FlattenChunks` | Tomja/Pages/Profile/Views/RegisterDeviceSheet.swift:156-160 | Putting the pieces back together gives the input. |
| `RegisterDevice.ColonsRemovable` | Tomja/Pages/Profile/Views/RegisterDeviceSheet.swift:152-163 | Deleting the colons from the result gives back any input that has no colons. |
| `RegisterDevice.ColoniseLength` | Tomja/Pages/Profile/Views/RegisterDeviceSheet.swift:152-163 | An empty input gives an empty result; n >= 1 characters give n + ceil(n/2) - 1. |
| `RegisterDevice.AddressLengthIff` | Tomja/Pages/Profile/Views/RegisterDeviceSheet.swift:95 | The assembled "66:66:" address has the 17 characters that validation demands exactly when the scanned code has 8. |
| `RegisterDevice.Sizing` | Tomja/Pages/Profile/Views/RegisterDeviceSheet.swift:141-150 | Small and medium devices are 296 by 128; large devices, and only those, are 400 by 300. |
| `RegisterDevice.Validate` | Tomja/Pages/Profile/Views/RegisterDeviceSheet.swift:113-123 | The error is the message of the last failing check (address, type, name, in that order); with no failing check, the earlier error is kept. |
| `RegisterDevice.Register` | Tomja/Pages/Profile/Views/RegisterDeviceSheet.swift:109-139 | It posts exactly when no error is set and every check passes. The post sends the scanned address, the name and the size for the type. Without a post, the sheet shows the error validation left, and its dismissal is untouched. A thrown post shows the failure message and does not dismiss. A successful post dismisses with no error. An earlier error is never cleared, and `loading` is false on exit. |
| `RegisterDevice.ErrorIsSticky` | Tomja/Pages/Profile/Views/RegisterDeviceSheet.swift:125-128 | After any failed attempt, no later attempt posts. |
| `RegisterDevice.Scanned` | Tomja/Pages/Profile/Views/RegisterDeviceSheet.swift:93-96 | A scan stores the assembled address and closes the scanner. |
| `RegisterDevice.EightCharacterScanRegisters` | Tomja/Pages/Profile/Views/RegisterDeviceSheet.swift:95 | A fresh form with an 8-character scan, a type and a name posts "66:66:" followed by the colonised code. |
| `RegisterDevice.RegisterUnfilledSheet` | Tomja/Pages/Profile/Views/RegisterDeviceSheet.swift:24-31 | Registering a sheet that was just opened posts nothing and reports the missing name. |
| `Otp.RemoveSpaces` | Tomja/Views/OTPPassView.swift:61 | The result has no spaces and keeps every other character with its multiplicity. |
| `Otp.RemoveSpacesAppend` | Tomja/Views/OTPPassView.swift:61 | Removing spaces from two joined strings joins the results, so the other characters keep their order. |
| `Otp.RemoveSpacesSingle` | Tomja/Views/OTPPassView.swift:61 | A single space is removed and any other single character is kept. |
| `Otp.Normalize` | Tomja/Views/OTPPassView.swift:61-62 | The normalised value has no spaces. Its length is the smaller of 6 and the length of the space-free input, and it agrees with that input position by position, so it is the space-free input cut to 6. |
| `Otp.NormalizeIdempotent` | Tomja/Views/OTPPassView.swift:60-62 | Normalising a normalised value changes nothing. |
| `Otp.ValueFor` | Tomja/Views/OTPPassView.swift:100-109 | A cell shows a character exactly when the value reaches its index, and the character it shows is the one at that index. |
| `Otp.EveryCharacterHasACell` | Tomja/Views/OTPPassView.swift:30-32 | Every character of a normalised value falls in one of the six rendered cells. |
| `Otp.BorderColour` | Tomja/Views/OTPPassView.swift:92-98 | The border is red exactly when the state is invalid and green exactly when it is valid. While typing it is primary exactly when the field is full and focused, and gray otherwise. |
| `Otp.OnChange` | Tomja/Views/OTPPassView.swift:60-71 | The value becomes its normalisation and the verdict becomes the state. Only an invalid verdict toggles the error trigger, and only a valid one toggles the success trigger. |
| `Otp.ReentrantChangeIsStable` | Tomja/Views/OTPPassView.swift:60-62 | The change that writing back the normalised value triggers leaves the value as it is. |
| `PushRegistration.ParseAuthState` | Tomja/Environment/PushRegistrationManager.swift:17-19 | Any string it accepts is the raw value of the state it returns. |
| `PushRegistration.ParseRawValue` | Tomja/Environment/PushRegistrationManager.swift:111-115 | Every state survives being stored as its raw value and read back. |
| `PushRegistration.ParseAcceptsOnlyRawValues` | Tomja/Environment/PushRegistrationManager.swift:112-113 | A stored string is accepted exactly when it is some state's raw value. |
| `PushRegistration.LastSentAuthState` | Tomja/Environment/PushRegistrationManager.swift:111-115 | It returns the stored state, or unknown when nothing readable is stored. |
| `PushRegistration.LastSentToken` | Tomja/Environment/PushRegistrationManager.swift:117-119 | It returns the stored token, if any. |
| `PushRegistration.SetLastSent` | Tomja/Environment/PushRegistrationManager.swift:121-126 | The state is always recorded; the token is recorded only when there is one; other defaults are untouched. |
| `PushRegistration.SendToApiIfNeeded` | Tomja/Environment/PushRegistrationManager.swift:128-139 | It posts exactly when a client exists and the state changed or a new non-nil token arrived. The post carries the token, or "" when there is none. A successful post records exactly what `setLastSent` stores, after which the report is no longer due. Without a successful post, defaults are unchanged. |
| `PushRegistration.RepeatAfterSuccessIsSilent` | Tomja/Environment/PushRegistrationManager.swift:128-139 | Repeating a report that succeeded posts nothing and changes nothing. |
| `PushRegistration.Refresh` | Tomja/Environment/PushRegistrationManager.swift:27-40 | It publishes the current state and posts "" with the device name exactly when the state differs from the last report. A successful post stores the state; otherwise defaults are unchanged. It requests registration exactly for authorized, provisional and ephemeral. |
| `PushRegistration.RefreshGuardIsRedundant` | Tomja/Environment/PushRegistrationManager.swift:33-35 | The refresh's own state comparison changes nothing: the call without a token makes the same decision. |
| `PushRegistration.DidReceiveDeviceToken` | Tomja/Environment/PushRegistrationManager.swift:80-86 | It publishes the current state and reports the token exactly as `sendToApiIfNeeded` does with that token and state. It posts exactly when a client exists and a report is due, and a successful post records the token. |
| `PushRegistration.NewTokenIsReported` | Tomja/Environment/PushRegistrationManager.swift:128-132 | A token that differs from the stored one is posted even when the state is unchanged. |
| `PushRegistration.RequestPermission` | Tomja/Environment/PushRegistrationManager.swift:43-78 | Registration is requested exactly for an authorised-like setting or a granted prompt. An unknown setting, or a prompt that throws, changes nothing. Every other path publishes the state read after the prompt and reports it exactly as `sendToApiIfNeeded` does without a token. |
| `PushRegistration.AnsweredPromptReportsChange` | Tomja/Environment/PushRegistrationManager.swift:43-78 | An answered prompt, granted or refused, posts exactly when the state read afterwards differs from the last report, and a successful post records that state. |
| `ImageBase64.Payload` | Tomja/Extensions/Image+Base64.swift:12-15 | When the input starts with the JPEG data-URL prefix, the result is the rest of it; otherwise the input is returned unchanged. |
| `ImageBase64.StripsPrefixOnce` | Tomja/Extensions/Image+Base64.swift:13-14 | Prefixing a payload and stripping it gives the payload back, even when the payload itself starts with the prefix. |
| `ImageBase64.PrefixAloneIsEmpty` | Tomja/Extensions/Image+Base64.swift:13-14 | The prefix alone yields an empty payload. |
| `ImageBase64.MakeImage` | Tomja/Extensions/Image+Base64.swift:11-26 | The result is the decoded picture exactly when the payload decodes as base64 and as an image; otherwise it is the "error" symbol. |
| `ImageBase64.PrefixIsOptional` | Tomja/Extensions/Image+Base64.swift:12-15 | A data URL and its bare payload show the same image. |
| `CanvasGeometry.Clamped` | Tomja/Views/CanvasEditor.swift:651-655 | A value below the range gives the lower bound, one above gives the upper bound, and one inside is returned unchanged. |
| `CanvasGeometry.ClampedIsNearest` | Tomja/Views/CanvasEditor.swift:651-655 | The clamped value is the point of the range nearest to the input. |
| `CanvasGeometry.ClampNormalized` | Tomja/Views/CanvasEditor.swift:459-461 | The result lies in the unit square, and a point already inside is unchanged. |
| `CanvasGeometry.ClampNormalizedIsNearest` | Tomja/Views/CanvasEditor.swift:459-461 | Coordinate by coordinate, the result is the nearest point of the unit square. |
| `CanvasGeometry.NormalizeAxis` | Tomja/Views/CanvasEditor.swift:448-453 | One coordinate normalised: the result lies in [0, 1]. A coordinate at or before the origin gives 0, and one at or past the extent (at least 1) gives 1. On an axis at least 1 long, a coordinate inside becomes the fraction that scales back to it. On a shorter axis it is only clamped. |
| `CanvasGeometry.Normalize` | Tomja/Views/CanvasEditor.swift:448-453 | The result lies in the unit square even for a zero-size canvas, and each coordinate is normalised against its own dimension. |
| `CanvasGeometry.Denormalize` | Tomja/Views/CanvasEditor.swift:455-457 | A normalised position maps to a point inside the canvas. |
| `CanvasGeometry.DenormalizeNormalize` | Tomja/Views/CanvasEditor.swift:448-457 | On a canvas at least 1 by 1, a point inside survives normalising and scaling back. |
| `CanvasGeometry.NormalizeDenormalize` | Tomja/Views/CanvasEditor.swift:448-457 | On such a canvas, a normalised position survives scaling up and normalising again. |
| `CanvasGeometry.Centered` | Tomja/Views/CanvasEditor.swift:640-649 | The rectangle keeps its size and its centre moves onto the container's centre. |
| `CanvasGeometry.CanvasRect` | Tomja/Views/CanvasEditor.swift:465-478 | For any non-negative aspect, the rectangle has width = height × aspect, spans the full width or the full height, fits the container, and is centred in it. An aspect of 0 gives the full height at zero width, as the failed comparison against an infinite or NaN candidate height does. |
| `CanvasGeometry.CanvasRectIsLargest` | Tomja/Views/CanvasEditor.swift:465-478 | No rectangle of the target aspect that fits the container is wider. |
| `CanvasGeometry.Pan` | Tomja/Views/CanvasEditor.swift:762-774 | Without a start state nothing changes. Otherwise the position is the start position moved by the translation divided by each canvas dimension (at least 1), clamped into the unit square. Rotation and scale are untouched. |
| `CanvasGeometry.PanFollowsFinger` | Tomja/Views/CanvasEditor.swift:762-774 | For one gesture at a time, that is with the start state fixed: on a canvas at least 1 by 1, a pan that stays clear of the edge moves the item's canvas point by exactly the translation. |
| `CanvasGeometry.Pinch` | Tomja/Views/CanvasEditor.swift:776-788 | The scale always lies in [0.2, 4.0]. It equals start × factor when that is in range, 0.2 below the range and 4.0 above it. Position and rotation are untouched. |
| `CanvasGeometry.Rotate` | Tomja/Views/CanvasEditor.swift:790-799 | The rotation is the start rotation plus the gesture's rotation; position and scale are untouched. |
| `CanvasGeometry.PinchDoesNotCompound` | Tomja/Views/CanvasEditor.swift:781-783 | For one gesture at a time, repeated reports of one pinch do not compound, because each is applied to the start scale. |
| `CanvasGeometry.RotateDoesNotCompound` | Tomja/Views/CanvasEditor.swift:790-797 | For one gesture at a time, repeated reports of one rotation do not add up, because each is added to the start rotation. |
| `CanvasGeometry.Handle` | Tomja/Views/CanvasEditor.swift:746-799 | Any recogniser's start takes the shown state as the one shared base, a change keeps the base, and any end drops it. The report is applied to the shown state relative to the base and written; with no base nothing is written. The write does not change what the coordinator reads. |
| `CanvasGeometry.Render` | Tomja/Views/CanvasEditor.swift:721-727 | A render gives the coordinator a binding that reads the item as it now is, and keeps the base. |
| `CanvasGeometry.Step` | Tomja/Views/CanvasEditor.swift:244-251 | A handler call followed by a render: the written transform is the one the next callback reads, and without a write the shown state stays. |
| `CanvasGeometry.RepeatedReportIsStable` | Tomja/Views/CanvasEditor.swift:762-797 | With a render after each call and no other recogniser beginning, repeating a report changes nothing more. |
| `CanvasGeometry.RotationStartCompoundsPinch` | Tomja/Views/CanvasEditor.swift:742-760 | Because the base is shared, a rotation that begins mid-pinch re-bases it: a pinch of 2 reported again after that gives scale 4, not 2. |
| `CanvasGeometry.PinchStartRepeatsPan` | Tomja/Views/CanvasEditor.swift:742-774 | In the same way, a pinch that begins mid-pan makes the pan apply its translation twice. |
| `CanvasGeometry.SameEventPinchRevertsPan` | Tomja/Views/CanvasEditor.swift:247-248 | Without a render between them, a pan and a pinch of one touch event both read the same shown state, so the pinch writes the old position back and the pan's move is lost. |
| `CanvasEditor.FirstIndex` | Tomja/Views/CanvasEditor.swift:427 | It returns the first index carrying the id, or nil exactly when no item carries it. |
| `CanvasEditor.RemoveAll` | Tomja/Views/CanvasEditor.swift:413 | It keeps exactly the items with another id. |
| `CanvasEditor.RemoveAllAppend` | Tomja/Views/CanvasEditor.swift:413 | Removing from two joined lists joins the results, so the kept items stay in order. |
| `CanvasEditor.RemoveAllSingle` | Tomja/Views/CanvasEditor.swift:413 | A single item is dropped exactly when it carries the id. |
| `CanvasEditor.BeginTextEdit` | Tomja/Views/CanvasEditor.swift:421-424 | Editing targets the item, and the draft starts from its text; nothing else changes. |
| `CanvasEditor.AddText` | Tomja/Views/CanvasEditor.swift:395-400 | It appends exactly one white, centred, unscaled "Tap to edit" text, selects it and opens it for editing with that draft. |
| `CanvasEditor.AddSticker` | Tomja/Views/CanvasEditor.swift:402-407 | It appends exactly one centred sticker with the asset, selects it and closes text editing. |
| `CanvasEditor.DeleteSelected` | Tomja/Views/CanvasEditor.swift:409-419 | With no selection nothing changes. Otherwise the matching list becomes that list with every item of the selected id removed, in order. The other list is untouched, and the selection and editing are cleared. |
| `CanvasEditor.CommittedText` | Tomja/Views/CanvasEditor.swift:428 | A committed text is never empty; a non-empty draft is stored as it is. |
| `CanvasEditor.CommitTextEdit` | Tomja/Views/CanvasEditor.swift:426-430 | The draft (or " ") goes into the first text with the id and editing ends; with no such text nothing changes, and editing is not cleared. |
| `CanvasEditor.UpdateText` | Tomja/Views/CanvasEditor.swift:432-437 | Only the first text with the id changes: it gets the clamped position, the rotation and the scale. With no such text nothing changes. |
| `CanvasEditor.UpdateSticker` | Tomja/Views/CanvasEditor.swift:439-444 | The same for stickers. |
| `CanvasEditor.SelectForGesture` | Tomja/Views/CanvasEditor.swift:276-279 | A gesture selects its item and ends text editing. |
| `CanvasEditor.TapItem` | Tomja/Views/CanvasEditor.swift:284 | A plain tap on an item selects it and leaves any open text edit and the draft as they were. |
| `CanvasEditor.TapKeepsOtherEdit` | Tomja/Views/CanvasEditor.swift:324 | Tapping a sticker during a text edit selects the sticker and keeps the edit open. Deleting the selection then leaves the texts alone. |
| `CanvasEditor.LongPressText` | Tomja/Views/CanvasEditor.swift:285-288 | A long press selects the text and opens it for editing. |
| `CanvasEditor.TapCanvas` | Tomja/Views/CanvasEditor.swift:138-141 | A tap on the canvas clears the selection and editing. |
| `CanvasEditor.ApplyKeepsPlaced` | Tomja/Views/CanvasEditor.swift:432-444 | Every editor action keeps every item's position in the unit square, whatever position a gesture proposes. |
| `CanvasEditor.ApplyAllKeepsPlaced` | Tomja/Views/CanvasEditor.swift:23-24 | Any sequence of actions keeps every position normalised to the canvas. |
| `CanvasEditor.AddThenCommit` | Tomja/Views/CanvasEditor.swift:395-430 | Adding a text under an unused id and committing it stores the draft in that new item alone. |
| `CanvasEditor.AddThenDelete` | Tomja/Views/CanvasEditor.swift:395-419 | Deleting a text that was just added under an unused id restores both lists. |

## Left out

- View bodies, layout, animations, haptics, alerts and navigation are not modelled. Only the state each action changes is modelled.
- The network and `URLSession`: the transport is a function from request to response, and each call sends exactly once.
- JSON encoding and decoding are functions supplied by the caller. The model does pass the decoder its date strategy (`DateFormat.DecodeDate`).
- URL parsing is out of scope, as is the way `URL.appending(path:)` merges slashes: the model keeps the base URL and the relative path separately.
- Strings are sequences of characters. Swift's `count`, `prefix` and indexing work on grapheme clusters; the model does not distinguish these from characters.
- The keychain's UTF-8 `Data` round trip of the key is left out: the stored string is read back unchanged.
- The `loading` flag's value during the post is not modelled; only its value on exit is.
- `Users.registerApns` is not defined in the shown `Users.swift`, so the push report is modelled as its own record (`PushRegistration.ApnsRegistration`), not as a `Users` case.
- The device name comes from `UIDevice` and enters as a parameter.
- PushRegistration.SendToApiIfNeeded: the `registerApns` post asks for a `String`. So a reply that is not UTF-8 makes the client's forced cast trap and the app stop (`ApiClient.MakeEntityRequest` models this as `ForcedCastTrap`). Here that case is folded into a failed post (`postOk` false), which records nothing.
- Concurrency: each entry point of `PushRegistrationManager`, and each `onChange` of the one-time code view, runs to completion before the next one starts. The app runs them in `Task`s that can interleave at each `await`. Two token reports could then both find the report due and both post, and one-time-code verdicts from successive edits could arrive out of order.
- The API client is reduced to the post's outcome. `didReceiveDeviceToken` takes an optional client, so its model takes whether one is present (`apiPresent`). `refreshAndRegisterIfNeeded` and `requestPermission` always have one.
- `UUID()` randomness: new canvas items take an id supplied by the caller.
- The unused `overlayGestureAbsolute` drag/rotate/magnify handlers are left out. Only the `TransformGestureView` coordinator's handlers, which the views use, are modelled.
- PencilKit drawing, image export, `croppedToAspect` and the photo picker.
- Canvas arithmetic uses exact reals: CGFloat rounding is not modelled.
- The gesture coordinator's `state` binding is always present, and its unused `accumulatedRotation` and `accumulatedScale` counters are left out. When SwiftUI renders between two callbacks is not modelled: `CanvasGeometry.Step` renders after a call, and `CanvasGeometry.Handle` alone does not.
- CanvasGeometry.CanvasRect: requires a non-negative aspect. The aspect is a ratio of pixel sizes, so it is never negative. A zero pixel height gives an infinite or NaN aspect, which reals cannot express. A zero pixel width gives aspect 0, which is modelled.
- Neither date formatter sets a locale or a calendar. The device's calendar and 12/24-hour setting can therefore change how the fixed layouts format and parse. The model assumes the Gregorian calendar with `HH` read as a literal 24-hour field.
- Leap seconds, lower-case `t`/`z`, and lenient date parsing: the formatter is modelled as accepting exactly the fixed-width layouts with upper-case `T` and `Z`.
- The Swift source makes `Picker` offer only small and large; `Medium` is modelled because `sizing(for:)` handles it.

=== FILE: api_client.dfy ===
/**
 * `APIClient`: turns an endpoint into a URL request, sends it once, and
 * interprets the outcome. The URL parser, the transport, the JSON encoder and
 * decoder and UTF-8 decoding are foreign code and enter as values: the parsed
 * base URL (or nil), a function from request to response, and functions from
 * payload to bytes and back. The API key is the value the keychain returned
 * when the request was built.
 */
module ApiClient {
  import opened Wrappers
  import opened Endpoints
  import opened DateFormat
  import Keychain

  type Bytes = seq<bv8>

  datatype ClientError = UnexpectedError | InvalidUrl

  /** Why a typed call did not produce a value. */
  datatype CallError =
    | ClientFailure(error: ClientError)
    | TransportFailure
    | DecodingFailure(description: string)
    /** The forced cast of a nil UTF-8 decoding to a non-optional `String` traps. */
    | ForcedCastTrap

  /** An absolute URL: the parsed host, the endpoint path appended, then the query items. */
  datatype Url = Url(base: string, path: string, query: seq<QueryItem>)

  datatype Request = Request(url: Url, httpMethod: string, body: Option<Bytes>, headers: map<string, string>)

  /** The transport either throws or delivers a response, whose HTTP status is nil when it is not an HTTP response. */
  datatype Response = Threw | Received(status: Option<int>, data: Bytes)

  /** What the client was built with and reads at request time. */
  datatype Client = Client(
    /** `URL(string: host)`, nil when the host string does not parse. */
    baseUrl: Option<string>,
    /** `KeychainStore.getAPIKey()`. */
    storedKey: Option<string>,
    /** `JSONEncoder.encode` with the outgoing date layout; nil when it throws. */
    encode: Body -> Option<Bytes>)

  /** One call: the request that went out, if one did, and what the caller got back. */
  datatype Call<T> = Call(sent: Option<Request>, result: T)

  const ContentType := "Content-Type"
  const ApiKeyHeader := "X-API-Key"
  const JsonContentType := "application/json"
  const MultipartContentTypePrefix := "multipart/form-data; boundary="

  /** `makeURL`: fails only for an unparsable host; nil query items count as none. */
  function MakeURL(baseUrl: Option<string>, d: Descriptor): (r: Result<Url, ClientError>)
    ensures r.Failure? <==> baseUrl.None?
    ensures r.Failure? ==> r.error == InvalidUrl
    ensures r.Success? ==> r.value.base == baseUrl.value && r.value.path == d.path
    ensures r.Success? && d.queryItems.None? ==> r.value.query == []
    ensures r.Success? && d.queryItems.Some? ==> r.value.query == d.queryItems.value
  {
    match baseUrl
    case None => Failure(InvalidUrl)
    case Some(base) => Success(Url(base, d.path, d.queryItems.GetOr([])))
  }

  /**
   * `makeURLRequest`: a multipart payload wins over a JSON body; a JSON body is
   * attached only when it encodes; the API key header is set whenever a
   * non-empty key is stored.
   */
  function MakeURLRequest(url: Url, d: Descriptor, httpMethod: string,
                          encode: Body -> Option<Bytes>, storedKey: Option<string>): (r: Request)
    ensures r.url == url && r.httpMethod == httpMethod
    ensures d.multipartData.Some? ==>
      && r.body == Some(d.multipartData.value.data)
      && ContentType in r.headers
      && r.headers[ContentType] == MultipartContentTypePrefix + d.multipartData.value.boundary
    ensures d.multipartData.None? && d.body.Some? && encode(d.body.value).Some? ==>
      && r.body == encode(d.body.value)
      && ContentType in r.headers && r.headers[ContentType] == JsonContentType
    ensures d.multipartData.None? && (d.body.None? || encode(d.body.value).None?) ==>
      r.body.None? && ContentType !in r.headers
    ensures ApiKeyHeader in r.headers <==> storedKey.Some? && storedKey.value != ""
    ensures ApiKeyHeader in r.headers ==> r.headers[ApiKeyHeader] == storedKey.value
    ensures r.headers.Keys <= {ContentType, ApiKeyHeader}
  {
    var base :=
      match d.multipartData
      case Some(multipart) =>
        Request(url, httpMethod, Some(multipart.data),
                map[ContentType := MultipartContentTypePrefix + multipart.boundary])
      case None =>
        match d.body
        case None => Request(url, httpMethod, None, map[])
        case Some(json) =>
          match encode(json)
          case Some(data) => Request(url, httpMethod, Some(data), map[ContentType := JsonContentType])
          case None => Request(url, httpMethod, None, map[]);
    match storedKey
    case Some(apiKey) =>
      if apiKey != "" then base.(headers := base.headers[ApiKeyHeader := apiKey]) else base
    case None => base
  }

  /** `makeURL` followed by `makeURLRequest`. */
  function Prepare(c: Client, d: Descriptor, httpMethod: string): (r: Result<Request, ClientError>)
    ensures r.Failure? <==> c.baseUrl.None?
    ensures r.Success? ==> r.value.httpMethod == httpMethod && r.value.url.path == d.path
  {
    match MakeURL(c.baseUrl, d)
    case Failure(e) => Failure(e)
    case Success(url) => Success(MakeURLRequest(url, d, httpMethod, c.encode, c.storedKey))
  }

  /** True exactly when the HTTP status is 200. */
  predicate IsStatus200(resp: Response) {
    resp.Received? && resp.status == Some(200)
  }

  /** `getExpect200`: every thrown error becomes false; only status 200 is true. */
  function GetExpect200(c: Client, d: Descriptor, transport: Request -> Response): (r: Call<bool>)
    ensures r.sent.Some? <==> c.baseUrl.Some?
    ensures r.sent.Some? ==> r.sent.value.httpMethod == "GET"
    ensures r.result <==> r.sent.Some? && IsStatus200(transport(r.sent.value))
  {
    match Prepare(c, d, "GET")
    case Failure(_) => Call(None, false)
    case Success(request) =>
      match transport(request)
      case Threw => Call(Some(request), false)
      case Received(status, _) => Call(Some(request), status == Some(200))
  }

  /** `postIgnoreResponse`: true whenever any response arrives, whatever its status. */
  function PostIgnoreResponse(c: Client, d: Descriptor, transport: Request -> Response): (r: Call<bool>)
    ensures r.sent.Some? <==> c.baseUrl.Some?
    ensures r.sent.Some? ==> r.sent.value.httpMethod == "POST"
    ensures r.result <==> r.sent.Some? && transport(r.sent.value).Received?
  {
    match Prepare(c, d, "POST")
    case Failure(_) => Call(None, false)
    case Success(request) =>
      match transport(request)
      case Threw => Call(Some(request), false)
      case Received(_, _) => Call(Some(request), true)
  }

  /** `delete`: builds its request with the verb "GET", and applies the status-200 rule. */
  function Delete(c: Client, d: Descriptor, transport: Request -> Response): (r: Call<bool>)
    ensures r.sent.Some? ==> r.sent.value.httpMethod == "GET"
    ensures r.result <==> r.sent.Some? && IsStatus200(transport(r.sent.value))
  {
    match Prepare(c, d, "GET")
    case Failure(_) => Call(None, false)
    case Success(request) =>
      match transport(request)
      case Threw => Call(Some(request), false)
      case Received(status, _) => Call(Some(request), status == Some(200))
  }

  /** `delete` is indistinguishable from `getExpect200`: same request, same answer. */
  lemma DeleteIsGetExpect200(c: Client, d: Descriptor, transport: Request -> Response)
    ensures Delete(c, d, transport) == GetExpect200(c, d, transport)
  {
  }

  // ---------------------------------------------------------------------------
  // Typed calls

  /** The entity type the caller asks for, as far as the client distinguishes it. */
  datatype Expected = PlainString | OptionalString | DecodableType

  datatype Entity<T> = Text(text: Option<string>) | Decoded(value: T)

  /** The JSON decoder, given the bytes and the date strategy it must use. */
  type JsonDecoder<T> = (Bytes, string -> Result<DateTime, string>) -> Result<T, string>

  /**
   * `makeEntityRequest`: sends once; a `String` or `String?` entity is the raw
   * bytes read as UTF-8 text, anything else goes through the JSON decoder with
   * the configured date strategy. The status code is never consulted.
   */
  function MakeEntityRequest<T>(c: Client, d: Descriptor, httpMethod: string, expected: Expected,
                                transport: Request -> Response, utf8: Bytes -> Option<string>,
                                decodeJson: JsonDecoder<T>): (r: Call<Result<Entity<T>, CallError>>)
    ensures r.sent.Some? <==> c.baseUrl.Some?
    ensures r.sent.Some? ==> r.sent.value.httpMethod == httpMethod
    ensures r.sent.None? ==> r.result == Failure(ClientFailure(InvalidUrl))
    ensures r.sent.Some? && transport(r.sent.value).Threw? ==> r.result == Failure(TransportFailure)
    ensures r.result.Success? && expected != DecodableType ==>
      r.result.value == Text(utf8(transport(r.sent.value).data))
    ensures r.result.Success? && expected == DecodableType ==> r.result.value.Decoded?
    ensures r.sent.Some? && transport(r.sent.value).Received? ==>
      var data := transport(r.sent.value).data;
      (expected == OptionalString ==> r.result == Success(Text(utf8(data)))) &&
      (expected == PlainString && utf8(data).Some? ==> r.result == Success(Text(utf8(data)))) &&
      (expected == PlainString && utf8(data).None? ==> r.result == Failure(ForcedCastTrap)) &&
      (expected == DecodableType && decodeJson(data, DecodeDate).Success? ==>
         r.result == Success(Decoded(decodeJson(data, DecodeDate).value))) &&
      (expected == DecodableType && decodeJson(data, DecodeDate).Failure? ==>
         r.result == Failure(DecodingFailure(decodeJson(data, DecodeDate).error)))
  {
    match Prepare(c, d, httpMethod)
    case Failure(e) => Call(None, Failure(ClientFailure(e)))
    case Success(request) =>
      match transport(request)
      case Threw => Call(Some(request), Failure(TransportFailure))
      case Received(_, data) =>
        match expected
        case PlainString =>
          (match utf8(data)
           case Some(text) => Call(Some(request), Success(Text(Some(text))))
           case None => Call(Some(request), Failure(ForcedCastTrap)))
        case OptionalString =>
          Call(Some(request), Success(Text(utf8(data))))
        case DecodableType =>
          match decodeJson(data, DecodeDate)
          case Success(v) => Call(Some(request), Success(Decoded(v)))
          case Failure(m) => Call(Some(request), Failure(DecodingFailure(m)))
  }

  function Get<T>(c: Client, d: Descriptor, expected: Expected, transport: Request -> Response,
                  utf8: Bytes -> Option<string>, decodeJson: JsonDecoder<T>): (r: Call<Result<Entity<T>, CallError>>)
    ensures r.sent.Some? ==> r.sent.value.httpMethod == "GET"
  {
    MakeEntityRequest(c, d, "GET", expected, transport, utf8, decodeJson)
  }

  function Post<T>(c: Client, d: Descriptor, expected: Expected, transport: Request -> Response,
                   utf8: Bytes -> Option<string>, decodeJson: JsonDecoder<T>): (r: Call<Result<Entity<T>, CallError>>)
    ensures r.sent.Some? ==> r.sent.value.httpMethod == "POST"
  {
    MakeEntityRequest(c, d, "POST", expected, transport, utf8, decodeJson)
  }

  function Put<T>(c: Client, d: Descriptor, expected: Expected, transport: Request -> Response,
                  utf8: Bytes -> Option<string>, decodeJson: JsonDecoder<T>): (r: Call<Result<Entity<T>, CallError>>)
    ensures r.sent.Some? ==> r.sent.value.httpMethod == "PUT"
  {
    MakeEntityRequest(c, d, "PUT", expected, transport, utf8, decodeJson)
  }

  /**
   * Once a response arrives, the call succeeds exactly when the body can be
   * read as the expected type, and a failure is one of reading the body.
   */
  lemma ReceivedCallOutcome<T>(c: Client, d: Descriptor, httpMethod: string, expected: Expected,
                               transport: Request -> Response, utf8: Bytes -> Option<string>,
                               decodeJson: JsonDecoder<T>)
    requires c.baseUrl.Some? && transport(Prepare(c, d, httpMethod).value).Received?
    ensures var data := transport(Prepare(c, d, httpMethod).value).data;
      var r := MakeEntityRequest(c, d, httpMethod, expected, transport, utf8, decodeJson).result;
      (r.Success? <==> expected == OptionalString || (expected == PlainString && utf8(data).Some?)
                       || (expected == DecodableType && decodeJson(data, DecodeDate).Success?)) &&
      (r.Failure? ==> r.error == ForcedCastTrap || r.error.DecodingFailure?)
  {
  }

  /** A string entity never reaches the JSON decoder: any two decoders give the same call. */
  lemma TextBypassesDecoder<T>(c: Client, d: Descriptor, httpMethod: string, expected: Expected,
                                   transport: Request -> Response, utf8: Bytes -> Option<string>,
                                   j1: JsonDecoder<T>, j2: JsonDecoder<T>)
    requires expected != DecodableType
    ensures MakeEntityRequest(c, d, httpMethod, expected, transport, utf8, j1)
         == MakeEntityRequest(c, d, httpMethod, expected, transport, utf8, j2)
  {
  }

  /** An empty body read as `String` is the empty string. */
  lemma EmptyTextBody<T>(c: Client, d: Descriptor, httpMethod: string, transport: Request -> Response,
                         decodeJson: JsonDecoder<T>, utf8: Bytes -> Option<string>)
    requires c.baseUrl.Some?
    requires utf8([]) == Some("")
    requires transport(Prepare(c, d, httpMethod).value).Received?
    requires transport(Prepare(c, d, httpMethod).value).data == []
    ensures MakeEntityRequest(c, d, httpMethod, PlainString, transport, utf8, decodeJson).result == Success(Text(Some("")))
  {
  }

  /** The status code of a response does not change what a typed call returns. */
  lemma StatusIgnoredByTypedCalls<T>(c: Client, d: Descriptor, httpMethod: string, expected: Expected,
                                         t1: Request -> Response, t2: Request -> Response,
                                         utf8: Bytes -> Option<string>, decodeJson: JsonDecoder<T>)
    requires forall q :: t1(q).Threw? == t2(q).Threw?
    requires forall q :: t1(q).Received? ==> t2(q).Received? && t1(q).data == t2(q).data
    ensures MakeEntityRequest(c, d, httpMethod, expected, t1, utf8, decodeJson).result
         == MakeEntityRequest(c, d, httpMethod, expected, t2, utf8, decodeJson).result
  {
    if c.baseUrl.Some? {
      var q := Prepare(c, d, httpMethod).value;
      assert t1(q).Threw? == t2(q).Threw?;
    }
  }

  // ---------------------------------------------------------------------------
  // The client applied to the shown endpoints

  /**
   * For every shown endpoint, the request goes to the endpoint's path with no
   * query items, and carries a JSON body with Content-Type "application/json"
   * exactly when the endpoint has a body that encodes; it never uses multipart.
   */
  lemma ShownEndpointRequests(c: Client, e: Endpoint, httpMethod: string)
    requires c.baseUrl.Some?
    ensures var r := Prepare(c, Describe(e), httpMethod).value;
      && r.url.path == Path(e) && r.url.query == []
      && (ContentType in r.headers <==> Describe(e).body.Some? && c.encode(Describe(e).body.value).Some?)
      && (ContentType in r.headers ==> r.headers[ContentType] == JsonContentType)
  {
    NoMultipartPayload(e);
    QueryItemsAlwaysEmpty(e);
  }

  /**
   * Once a non-empty key has been stored successfully and is read back, every
   * request, whatever its verb, carries it in `X-API-Key`.
   */
  lemma StoredKeyIsAttached(store: Keychain.Store, key: string, add: Keychain.AddStatus,
                            update: Keychain.UpdateStatus, baseUrl: string,
                            encode: Body -> Option<Bytes>, d: Descriptor, httpMethod: string)
    requires key != ""
    requires Keychain.SetAPIKey(store, key, add, update).ok
    ensures var stored := Keychain.GetAPIKey(Keychain.SetAPIKey(store, key, add, update).store, Keychain.CopySuccess);
      var r := Prepare(Client(Some(baseUrl), stored, encode), d, httpMethod).value;
      ApiKeyHeader in r.headers && r.headers[ApiKeyHeader] == key
  {
    Keychain.SetThenGet(store, key, add, update);
  }
}

=== FILE: canvas_editor.dfy ===
/**
 * The overlay state of `PencilKitCanvasEditor`: two lists of items (texts and
 * stickers) with positions normalised to the canvas, the current selection and
 * the text being edited with its draft. Item identifiers are fresh UUIDs in
 * the app; here they are supplied by the caller.
 */
module CanvasEditor {
  import opened Wrappers
  import opened CanvasGeometry

  type Id = int

  datatype Colour = White | Custom(name: string)

  datatype TextItem = TextItem(id: Id, text: string, color: Colour, position: Point, rotation: real, scale: real)

  datatype StickerItem = StickerItem(id: Id, assetName: string, position: Point, rotation: real, scale: real)

  datatype Selectable = TextSelection(id: Id) | StickerSelection(id: Id)

  datatype Editor = Editor(
    texts: seq<TextItem>,
    stickers: seq<StickerItem>,
    selection: Option<Selectable>,
    editingTextID: Option<Id>,
    draft: string)

  const Centre := Point(0.5, 0.5)
  const Placeholder := "Tap to edit"

  /** The editor as it opens: nothing placed, nothing selected. */
  const Empty := Editor([], [], None, None, "")

  /** A text item with the initialiser's defaults: white, centred, unrotated, unscaled. */
  function NewText(id: Id, text: string): TextItem {
    TextItem(id, text, White, Centre, 0.0, 1.0)
  }

  /** A sticker item with the initialiser's defaults. */
  function NewSticker(id: Id, asset: string): StickerItem {
    StickerItem(id, asset, Centre, 0.0, 1.0)
  }

  function TextId(t: TextItem): Id { t.id }
  function StickerId(s: StickerItem): Id { s.id }

  // ---------------------------------------------------------------------------
  // List helpers shared by both kinds of item

  /** `firstIndex(where: { $0.id == id })`. */
  function FirstIndex<T>(items: seq<T>, idOf: T -> Id, id: Id): (r: Option<nat>)
    ensures r.None? <==> forall j :: 0 <= j < |items| ==> idOf(items[j]) != id
    ensures r.Some? ==> r.value < |items| && idOf(items[r.value]) == id
    ensures r.Some? ==> forall j :: 0 <= j < r.value ==> idOf(items[j]) != id
  {
    if |items| == 0 then None
    else if idOf(items[0]) == id then Some(0)
    else match FirstIndex(items[1..], idOf, id)
      case None => None
      case Some(k) => Some(k + 1)
  }

  /** `removeAll { $0.id == id }`: the other items, in their order. */
  function RemoveAll<T(!new)>(items: seq<T>, idOf: T -> Id, id: Id): (r: seq<T>)
    ensures forall x :: x in r <==> x in items && idOf(x) != id
    ensures |r| <= |items|
  {
    if |items| == 0 then []
    else if idOf(items[0]) == id then RemoveAll(items[1..], idOf, id)
    else [items[0]] + RemoveAll(items[1..], idOf, id)
  }

  /** Removing an identifier no item carries changes nothing. */
  lemma {:induction false} RemoveAllAbsent<T(!new)>(items: seq<T>, idOf: T -> Id, id: Id)
    requires forall j :: 0 <= j < |items| ==> idOf(items[j]) != id
    ensures RemoveAll(items, idOf, id) == items
  {
    if |items| > 0 {
      RemoveAllAbsent(items[1..], idOf, id);
      assert [items[0]] + items[1..] == items;
    }
  }

  // ---------------------------------------------------------------------------
  // Actions

  /** `beginTextEdit`: edit this item, starting from its text. */
  function BeginTextEdit(e: Editor, item: TextItem): (r: Editor)
    ensures r.editingTextID == Some(item.id) && r.draft == item.text
    ensures r.texts == e.texts && r.stickers == e.stickers && r.selection == e.selection
  {
    e.(editingTextID := Some(item.id), draft := item.text)
  }

  /** `addText`: appends a placeholder text, selects it and opens it for editing. */
  function AddText(e: Editor, newId: Id): (r: Editor)
    ensures |r.texts| == |e.texts| + 1 && r.texts[..|e.texts|] == e.texts
    ensures var t := r.texts[|e.texts|];
      t.id == newId && t.text == Placeholder && t.position == Centre && t.scale == 1.0 && t.color == White
    ensures r.stickers == e.stickers
    ensures r.selection == Some(TextSelection(newId))
    ensures r.editingTextID == Some(newId) && r.draft == Placeholder
  {
    var item := NewText(newId, Placeholder);
    BeginTextEdit(e.(texts := e.texts + [item], selection := Some(TextSelection(newId))), item)
  }

  /** `addSticker(named:)`: appends a centred sticker, selects it and closes text editing. */
  function AddSticker(e: Editor, newId: Id, asset: string): (r: Editor)
    ensures |r.stickers| == |e.stickers| + 1 && r.stickers[..|e.stickers|] == e.stickers
    ensures var s := r.stickers[|e.stickers|];
      s.id == newId && s.assetName == asset && s.position == Centre && s.scale == 1.0
    ensures r.texts == e.texts && r.draft == e.draft
    ensures r.selection == Some(StickerSelection(newId)) && r.editingTextID.None?
  {
    e.(stickers := e.stickers + [NewSticker(newId, asset)], selection := Some(StickerSelection(newId)), editingTextID := None)
  }

  /**
   * `deleteSelected`: without a selection nothing happens; otherwise the
   * items carrying the selected identifier leave the matching list, the other
   * list is untouched, and selection and editing are cleared.
   */
  function DeleteSelected(e: Editor): (r: Editor)
    ensures e.selection.None? ==> r == e
    ensures e.selection.Some? ==> r.selection.None? && r.editingTextID.None? && r.draft == e.draft
    ensures e.selection.Some? && e.selection.value.TextSelection? ==>
      r.stickers == e.stickers && r.texts == RemoveAll(e.texts, TextId, e.selection.value.id) &&
      forall t :: t in r.texts <==> t in e.texts && t.id != e.selection.value.id
    ensures e.selection.Some? && e.selection.value.StickerSelection? ==>
      r.texts == e.texts && r.stickers == RemoveAll(e.stickers, StickerId, e.selection.value.id) &&
      forall s :: s in r.stickers <==> s in e.stickers && s.id != e.selection.value.id
  {
    match e.selection
    case None => e
    case Some(TextSelection(id)) =>
      e.(texts := RemoveAll(e.texts, TextId, id), selection := None, editingTextID := None)
    case Some(StickerSelection(id)) =>
      e.(stickers := RemoveAll(e.stickers, StickerId, id), selection := None, editingTextID := None)
  }

  /** The text a commit stores: a single space in place of an empty draft. */
  function CommittedText(draft: string): (r: string)
    ensures r != ""
    ensures draft != "" ==> r == draft
  {
    if draft == "" then " " else draft
  }

  /**
   * `commitTextEdit`: stores the draft in the first text with the identifier
   * and ends editing; when no text has it, nothing changes at all.
   */
  function CommitTextEdit(e: Editor, id: Id): (r: Editor)
    ensures FirstIndex(e.texts, TextId, id).None? ==> r == e
    ensures FirstIndex(e.texts, TextId, id).Some? ==>
      var i := FirstIndex(e.texts, TextId, id).value;
      r.texts == e.texts[i := e.texts[i].(text := CommittedText(e.draft))] && r.editingTextID.None?
    ensures r.stickers == e.stickers && r.selection == e.selection && r.draft == e.draft
  {
    match FirstIndex(e.texts, TextId, id)
    case None => e
    case Some(i) => e.(texts := e.texts[i := e.texts[i].(text := CommittedText(e.draft))], editingTextID := None)
  }

  /** `updateText`: the first text with the identifier takes the clamped position, rotation and scale. */
  function UpdateText(e: Editor, id: Id, pos: Point, rot: real, scale: real): (r: Editor)
    ensures FirstIndex(e.texts, TextId, id).None? ==> r == e
    ensures FirstIndex(e.texts, TextId, id).Some? ==>
      var i := FirstIndex(e.texts, TextId, id).value;
      |r.texts| == |e.texts| &&
      r.texts[i] == e.texts[i].(position := ClampNormalized(pos), rotation := rot, scale := scale) &&
      forall j :: 0 <= j < |e.texts| && j != i ==> r.texts[j] == e.texts[j]
    ensures r.stickers == e.stickers && r.selection == e.selection
    ensures r.editingTextID == e.editingTextID && r.draft == e.draft
  {
    match FirstIndex(e.texts, TextId, id)
    case None => e
    case Some(i) =>
      e.(texts := e.texts[i := e.texts[i].(position := ClampNormalized(pos), rotation := rot, scale := scale)])
  }

  /** `updateSticker`: the same for the first sticker with the identifier. */
  function UpdateSticker(e: Editor, id: Id, pos: Point, rot: real, scale: real): (r: Editor)
    ensures FirstIndex(e.stickers, StickerId, id).None? ==> r == e
    ensures FirstIndex(e.stickers, StickerId, id).Some? ==>
      var i := FirstIndex(e.stickers, StickerId, id).value;
      |r.stickers| == |e.stickers| &&
      r.stickers[i] == e.stickers[i].(position := ClampNormalized(pos), rotation := rot, scale := scale) &&
      forall j :: 0 <= j < |e.stickers| && j != i ==> r.stickers[j] == e.stickers[j]
    ensures r.texts == e.texts && r.selection == e.selection
    ensures r.editingTextID == e.editingTextID && r.draft == e.draft
  {
    match FirstIndex(e.stickers, StickerId, id)
    case None => e
    case Some(i) =>
      e.(stickers := e.stickers[i := e.stickers[i].(position := ClampNormalized(pos), rotation := rot, scale := scale)])
  }

  /** A gesture's `onSelect`: the item becomes the selection and text editing ends. */
  function SelectForGesture(e: Editor, s: Selectable): (r: Editor)
    ensures r.selection == Some(s) && r.editingTextID.None?
    ensures r.texts == e.texts && r.stickers == e.stickers && r.draft == e.draft
  {
    e.(selection := Some(s), editingTextID := None)
  }

  /**
   * A plain tap on an item: the item becomes the selection, and an edit that
   * is open stays open, possibly on another text.
   */
  function TapItem(e: Editor, s: Selectable): (r: Editor)
    ensures r.selection == Some(s)
    ensures r.editingTextID == e.editingTextID && r.draft == e.draft
    ensures r.texts == e.texts && r.stickers == e.stickers
  {
    e.(selection := Some(s))
  }

  /** Tapping a sticker while a text is being edited leaves the two apart: delete and commit then act on different items. */
  lemma TapKeepsOtherEdit(e: Editor, editing: Id, sticker: Id)
    requires e.editingTextID == Some(editing)
    ensures var r := TapItem(e, StickerSelection(sticker));
      r.selection == Some(StickerSelection(sticker)) && r.editingTextID == Some(editing)
      && DeleteSelected(r).texts == e.texts
  {
  }

  /** A long press on a text: select it and open it for editing. */
  function LongPressText(e: Editor, item: TextItem): (r: Editor)
    ensures r.selection == Some(TextSelection(item.id))
    ensures r.editingTextID == Some(item.id) && r.draft == item.text
    ensures r.texts == e.texts && r.stickers == e.stickers
  {
    BeginTextEdit(e.(selection := Some(TextSelection(item.id))), item)
  }

  /** A tap on the empty canvas: nothing selected, nothing edited. */
  function TapCanvas(e: Editor): (r: Editor)
    ensures r.selection.None? && r.editingTextID.None?
    ensures r.texts == e.texts && r.stickers == e.stickers && r.draft == e.draft
  {
    e.(selection := None, editingTextID := None)
  }

  // ---------------------------------------------------------------------------
  // Invariant: every item sits inside the canvas

  /** Every position is normalised to the unit square. */
  predicate Placed(e: Editor) {
    (forall i :: 0 <= i < |e.texts| ==> InUnitSquare(e.texts[i].position))
    && (forall i :: 0 <= i < |e.stickers| ==> InUnitSquare(e.stickers[i].position))
  }

  /** One user action on the overlay lists. */
  datatype Action =
    | AddTextAction(newId: Id)
    | AddStickerAction(newId: Id, asset: string)
    | DeleteSelectedAction
    | CommitAction(id: Id)
    | UpdateTextAction(id: Id, pos: Point, rot: real, scale: real)
    | UpdateStickerAction(id: Id, pos: Point, rot: real, scale: real)
    | SelectAction(s: Selectable)
    | TapItemAction(s: Selectable)
    | LongPressAction(item: TextItem)
    | TapCanvasAction

  function Apply(e: Editor, a: Action): Editor {
    match a
    case AddTextAction(newId) => AddText(e, newId)
    case AddStickerAction(newId, asset) => AddSticker(e, newId, asset)
    case DeleteSelectedAction => DeleteSelected(e)
    case CommitAction(id) => CommitTextEdit(e, id)
    case UpdateTextAction(id, pos, rot, scale) => UpdateText(e, id, pos, rot, scale)
    case UpdateStickerAction(id, pos, rot, scale) => UpdateSticker(e, id, pos, rot, scale)
    case SelectAction(s) => SelectForGesture(e, s)
    case TapItemAction(s) => TapItem(e, s)
    case LongPressAction(item) => LongPressText(e, item)
    case TapCanvasAction => TapCanvas(e)
  }

  /** Every action keeps every item inside the canvas, whatever position a gesture proposes. */
  lemma ApplyKeepsPlaced(e: Editor, a: Action)
    requires Placed(e)
    ensures Placed(Apply(e, a))
  {
    match a
    case DeleteSelectedAction =>
      var r := DeleteSelected(e);
      forall i | 0 <= i < |r.texts|
        ensures InUnitSquare(r.texts[i].position)
      {
        assert r.texts[i] in e.texts;
      }
      forall i | 0 <= i < |r.stickers|
        ensures InUnitSquare(r.stickers[i].position)
      {
        assert r.stickers[i] in e.stickers;
      }
    case _ =>
  }

  function ApplyAll(e: Editor, actions: seq<Action>): Editor
    decreases |actions|
  {
    if |actions| == 0 then e else ApplyAll(Apply(e, actions[0]), actions[1..])
  }

  /** From the opening state, any sequence of actions leaves every item inside the canvas. */
  lemma {:induction false} ApplyAllKeepsPlaced(e: Editor, actions: seq<Action>)
    requires Placed(e)
    ensures Placed(ApplyAll(e, actions))
    decreases |actions|
  {
    if |actions| > 0 {
      ApplyKeepsPlaced(e, actions[0]);
      ApplyAllKeepsPlaced(Apply(e, actions[0]), actions[1..]);
    }
  }

  /** Adding a text under a fresh identifier and committing it stores the draft in that new item. */
  lemma AddThenCommit(e: Editor, newId: Id, draft: string)
    requires forall j :: 0 <= j < |e.texts| ==> e.texts[j].id != newId
    ensures var r := CommitTextEdit(AddText(e, newId).(draft := draft), newId);
      |r.texts| == |e.texts| + 1 && r.texts[|e.texts|].text == CommittedText(draft)
      && r.texts[..|e.texts|] == e.texts && r.editingTextID.None?
  {
    var a := AddText(e, newId).(draft := draft);
    assert a.texts[|e.texts|].id == newId;
    assert FirstIndex(a.texts, TextId, newId) == Some(|e.texts|);
  }

  /** Deleting a just-added text with an unused identifier gives back the lists as they were. */
  lemma AddThenDelete(e: Editor, newId: Id)
    requires forall j :: 0 <= j < |e.texts| ==> e.texts[j].id != newId
    ensures var r := DeleteSelected(AddText(e, newId));
      r.texts == e.texts && r.stickers == e.stickers && r.selection.None? && r.editingTextID.None?
  {
    var a := AddText(e, newId);
    RemoveAllAbsent(e.texts, TextId, newId);
    assert a.texts == e.texts + [a.texts[|e.texts|]];
    RemoveAllAppend(e.texts, [a.texts[|e.texts|]], TextId, newId);
    RemoveAllSingle(a.texts[|e.texts|], TextId, newId);
  }

  /** Removal works piece by piece, so the kept items stay in their order. */
  lemma {:induction false} RemoveAllAppend<T(!new)>(a: seq<T>, b: seq<T>, idOf: T -> Id, id: Id)
    ensures RemoveAll(a + b, idOf, id) == RemoveAll(a, idOf, id) + RemoveAll(b, idOf, id)
  {
    if |a| == 0 {
      assert a + b == b;
    } else {
      assert (a + b)[0] == a[0] && (a + b)[1..] == a[1..] + b;
      RemoveAllAppend(a[1..], b, idOf, id);
    }
  }

  /** On one item: it goes exactly when it carries the identifier. */
  lemma RemoveAllSingle<T(!new)>(x: T, idOf: T -> Id, id: Id)
    ensures RemoveAll([x], idOf, id) == if idOf(x) == id then [] else [x]
  {
    assert [x][1..] == [];
  }
}

=== FILE: canvas_geometry.dfy ===
/**
 * The geometry of the canvas editor over idealised reals: clamping, mapping
 * between view points and positions normalised to the unit square, the
 * letter-boxed canvas rectangle, and the three transform gestures.
 */
module CanvasGeometry {
  import opened Wrappers

  datatype Point = Point(x: real, y: real)

  datatype Size = Size(width: real, height: real)

  datatype Rect = Rect(x: real, y: real, width: real, height: real)

  function Max(a: real, b: real): (r: real)
    ensures r >= a && r >= b && (r == a || r == b)
  {
    if a >= b then a else b
  }

  function Min(a: real, b: real): (r: real)
    ensures r <= a && r <= b && (r == a || r == b)
  {
    if a <= b then a else b
  }

  function Abs(a: real): real {
    if a < 0.0 then -a else a
  }

  /** `clamped(to: lo...hi)`; a closed range needs `lo <= hi`. */
  function Clamped(v: real, lo: real, hi: real): (r: real)
    requires lo <= hi
    ensures lo <= r <= hi
    ensures v < lo ==> r == lo
    ensures v > hi ==> r == hi
    ensures lo <= v <= hi ==> r == v
  {
    Min(Max(v, lo), hi)
  }

  /** The clamped value is the point of the range nearest to the input. */
  lemma ClampedIsNearest(v: real, lo: real, hi: real, q: real)
    requires lo <= hi && lo <= q <= hi
    ensures Abs(Clamped(v, lo, hi) - v) <= Abs(q - v)
  {
  }

  predicate InUnitSquare(p: Point) {
    0.0 <= p.x <= 1.0 && 0.0 <= p.y <= 1.0
  }

  /** `clampNormalized`, and the gesture coordinator's `clamp`: each coordinate clamped to [0, 1]. */
  function ClampNormalized(p: Point): (r: Point)
    ensures InUnitSquare(r)
    ensures InUnitSquare(p) ==> r == p
  {
    Point(Clamped(p.x, 0.0, 1.0), Clamped(p.y, 0.0, 1.0))
  }

  /** The clamped point is, coordinate by coordinate, the nearest point of the unit square. */
  lemma ClampNormalizedIsNearest(p: Point, q: Point)
    requires InUnitSquare(q)
    ensures Abs(ClampNormalized(p).x - p.x) <= Abs(q.x - p.x)
    ensures Abs(ClampNormalized(p).y - p.y) <= Abs(q.y - p.y)
  {
    ClampedIsNearest(p.x, 0.0, 1.0, q.x);
    ClampedIsNearest(p.y, 0.0, 1.0, q.y);
  }

  /** Dividing by an extent of at least 1: where the quotient falls relative to [0, 1]. */
  lemma Fraction(v: real, m: real)
    requires m >= 1.0
    ensures v <= 0.0 ==> v / m <= 0.0
    ensures v >= m ==> v / m >= 1.0
    ensures 0.0 <= v <= m ==> 0.0 <= v / m <= 1.0
    ensures (v / m) * m == v
  {
    DivideBack(v, m);
  }

  /**
   * One coordinate of `normalize(_:in:)`: divided by the extent (at least 1)
   * and clamped to [0, 1]. At or before the origin it gives 0, at or past the
   * extent 1, and inside an extent of at least 1 the fraction that scales back
   * to it; against an extent under 1 the coordinate is only clamped.
   */
  function NormalizeAxis(v: real, extent: real): (r: real)
    ensures 0.0 <= r <= 1.0
    ensures v <= 0.0 ==> r == 0.0
    ensures v >= Max(extent, 1.0) ==> r == 1.0
    ensures extent >= 1.0 && 0.0 <= v <= extent ==> r * extent == v
    ensures extent <= 1.0 ==> r == Clamped(v, 0.0, 1.0)
  {
    var m := Max(extent, 1.0);
    Fraction(v, m);
    Clamped(v / m, 0.0, 1.0)
  }

  /** `normalize(_:in:)`: each coordinate normalised against its own dimension. */
  function Normalize(p: Point, canvas: Size): (r: Point)
    ensures InUnitSquare(r)
    ensures r.x == NormalizeAxis(p.x, canvas.width) && r.y == NormalizeAxis(p.y, canvas.height)
  {
    Point(NormalizeAxis(p.x, canvas.width), NormalizeAxis(p.y, canvas.height))
  }

  /** A fraction of a non-negative extent lies between 0 and the extent. */
  lemma ScaleWithin(a: real, w: real)
    ensures 0.0 <= a <= 1.0 && w >= 0.0 ==> 0.0 <= a * w <= w
  {
    if 0.0 <= a <= 1.0 && w >= 0.0 {
      assert w - a * w == (1.0 - a) * w;
    }
  }

  /** `denormalize(_:in:)`: scales a normalised position up to the canvas. */
  function Denormalize(p: Point, canvas: Size): (r: Point)
    ensures canvas.width >= 0.0 && canvas.height >= 0.0 && InUnitSquare(p) ==>
      0.0 <= r.x <= canvas.width && 0.0 <= r.y <= canvas.height
  {
    ScaleWithin(p.x, canvas.width);
    ScaleWithin(p.y, canvas.height);
    Point(p.x * canvas.width, p.y * canvas.height)
  }

  predicate Inside(p: Point, canvas: Size) {
    0.0 <= p.x <= canvas.width && 0.0 <= p.y <= canvas.height
  }

  lemma DivideBack(v: real, w: real)
    requires w >= 1.0
    ensures (v / w) * w == v && (v * w) / w == v
  {
  }

  /** On a canvas at least one point wide and high, a point inside survives normalising and scaling back. */
  lemma DenormalizeNormalize(p: Point, canvas: Size)
    requires canvas.width >= 1.0 && canvas.height >= 1.0 && Inside(p, canvas)
    ensures Denormalize(Normalize(p, canvas), canvas) == p
  {
    DivideBack(NormalizeAxis(p.x, canvas.width), canvas.width);
    DivideBack(NormalizeAxis(p.y, canvas.height), canvas.height);
  }

  /** On such a canvas, every normalised position survives scaling up and normalising again. */
  lemma NormalizeDenormalize(p: Point, canvas: Size)
    requires canvas.width >= 1.0 && canvas.height >= 1.0 && InUnitSquare(p)
    ensures Normalize(Denormalize(p, canvas), canvas) == p
  {
    AxisRoundTrip(p.x, canvas.width);
    AxisRoundTrip(p.y, canvas.height);
  }

  lemma AxisRoundTrip(a: real, w: real)
    requires w >= 1.0 && 0.0 <= a <= 1.0
    ensures NormalizeAxis(a * w, w) == a
  {
    ScaleWithin(a, w);
    Cancel(NormalizeAxis(a * w, w), a, w);
  }

  lemma Cancel(a: real, b: real, w: real)
    requires w >= 1.0 && a * w == b * w
    ensures a == b
  {
    assert (a - b) * w == 0.0;
  }

  function MidX(r: Rect): real { r.x + r.width / 2.0 }
  function MidY(r: Rect): real { r.y + r.height / 2.0 }

  /** `centered(in:)`: the same size, moved so both centres coincide. */
  function Centered(size: Size, container: Rect): (r: Rect)
    ensures r.width == size.width && r.height == size.height
    ensures MidX(r) == MidX(container) && MidY(r) == MidY(container)
  {
    Rect(MidX(container) - size.width / 2.0, MidY(container) - size.height / 2.0, size.width, size.height)
  }

  lemma ScaleBack(w: real, a: real)
    requires a > 0.0
    ensures (w / a) * a == w
  {
  }

  lemma TallerThanRoom(w: real, h: real, a: real)
    requires a > 0.0 && w / a > h
    ensures h * a < w
  {
    ScaleBack(w, a);
    assert (w / a) * a > h * a;
  }

  /** The two branches of `canvasRect` for a positive aspect. */
  function Letterbox(container: Size, aspect: real): (r: Rect)
    requires aspect > 0.0
    ensures r.width == r.height * aspect
    ensures r.width == container.width || r.height == container.height
    ensures container.width >= 0.0 && container.height >= 0.0 ==>
      0.0 <= r.width <= container.width && 0.0 <= r.height <= container.height
    ensures MidX(r) == container.width / 2.0 && MidY(r) == container.height / 2.0
  {
    var whole := Rect(0.0, 0.0, container.width, container.height);
    var candidateH := container.width / aspect;
    ScaleBack(container.width, aspect);
    if candidateH <= container.height then
      Centered(Size(container.width, candidateH), whole)
    else
      TallerThanRoom(container.width, container.height, aspect);
      Centered(Size(container.height * aspect, container.height), whole)
  }

  /**
   * `canvasRect(in:targetAspect:)`: the full container width when the matching
   * height fits, otherwise the full height; centred in the container either way.
   * With an aspect of 0 the division gives infinity or NaN, the comparison
   * fails, and the result is the full height at zero width.
   */
  function CanvasRect(container: Size, aspect: real): (r: Rect)
    requires aspect >= 0.0
    ensures r.width == r.height * aspect
    ensures r.width == container.width || r.height == container.height
    ensures container.width >= 0.0 && container.height >= 0.0 ==>
      0.0 <= r.width <= container.width && 0.0 <= r.height <= container.height
    ensures MidX(r) == container.width / 2.0 && MidY(r) == container.height / 2.0
    ensures aspect == 0.0 ==> r.width == 0.0 && r.height == container.height
  {
    if aspect == 0.0 then Centered(Size(0.0, container.height), Rect(0.0, 0.0, container.width, container.height))
    else Letterbox(container, aspect)
  }

  /** No rectangle of the target aspect that fits the container is wider than the canvas. */
  lemma CanvasRectIsLargest(container: Size, aspect: real, w: real, h: real)
    requires aspect >= 0.0 && container.width >= 0.0 && container.height >= 0.0
    requires w == h * aspect && 0.0 <= w <= container.width && 0.0 <= h <= container.height
    ensures w <= CanvasRect(container, aspect).width
  {
    var r := CanvasRect(container, aspect);
    if r.height == container.height {
      assert h * aspect <= container.height * aspect;
    }
  }

  /** The state a transform gesture edits: normalised position, rotation in radians, scale. */
  datatype TransformState = TransformState(position: Point, rotation: real, scale: real)

  const MinScale := 0.2
  const MaxScale := 4.0

  /** `handlePan`: the position at gesture start moved by the translation as a fraction of the canvas, clamped. */
  function Pan(base: Option<TransformState>, current: TransformState, translation: Point, canvas: Size): (r: TransformState)
    ensures base.None? ==> r == current
    ensures base.Some? ==> InUnitSquare(r.position)
    ensures base.Some? ==> r.position == ClampNormalized(Point(
      base.value.position.x + translation.x / Max(canvas.width, 1.0),
      base.value.position.y + translation.y / Max(canvas.height, 1.0)))
    ensures r.rotation == current.rotation && r.scale == current.scale
  {
    if base.None? then current
    else
      var dx := translation.x / Max(canvas.width, 1.0);
      var dy := translation.y / Max(canvas.height, 1.0);
      current.(position := ClampNormalized(Point(base.value.position.x + dx, base.value.position.y + dy)))
  }

  /**
   * On a canvas at least 1 by 1, a pan that does not hit the edge moves the
   * item's point on the canvas by exactly the finger's translation.
   */
  lemma PanFollowsFinger(base: TransformState, current: TransformState, translation: Point, canvas: Size)
    requires canvas.width >= 1.0 && canvas.height >= 1.0
    requires InUnitSquare(Point(base.position.x + translation.x / canvas.width,
                                base.position.y + translation.y / canvas.height))
    ensures var moved := Denormalize(Pan(Some(base), current, translation, canvas).position, canvas);
      var start := Denormalize(base.position, canvas);
      moved == Point(start.x + translation.x, start.y + translation.y)
  {
    var w, h := canvas.width, canvas.height;
    DivideBack(translation.x, w);
    DivideBack(translation.y, h);
    assert (base.position.x + translation.x / w) * w == base.position.x * w + (translation.x / w) * w;
    assert (base.position.y + translation.y / h) * h == base.position.y * h + (translation.y / h) * h;
  }

  /** `handlePinch`: the scale at gesture start times the cumulative pinch factor, kept within [0.2, 4]. */
  function Pinch(base: Option<TransformState>, current: TransformState, factor: real): (r: TransformState)
    ensures base.None? ==> r == current
    ensures base.Some? ==> MinScale <= r.scale <= MaxScale
    ensures base.Some? && MinScale <= base.value.scale * factor <= MaxScale ==> r.scale == base.value.scale * factor
    ensures base.Some? && base.value.scale * factor < MinScale ==> r.scale == MinScale
    ensures base.Some? && base.value.scale * factor > MaxScale ==> r.scale == MaxScale
    ensures r.position == current.position && r.rotation == current.rotation
  {
    if base.None? then current
    else current.(scale := Min(Max(base.value.scale * factor, MinScale), MaxScale))
  }

  /** `handleRotate`: the rotation at gesture start plus the cumulative rotation. */
  function Rotate(base: Option<TransformState>, current: TransformState, radians: real): (r: TransformState)
    ensures base.None? ==> r == current
    ensures base.Some? ==> r.rotation - base.value.rotation == radians
    ensures r.position == current.position && r.scale == current.scale
  {
    if base.None? then current
    else current.(rotation := base.value.rotation + radians)
  }

  /** A pinch is relative to the gesture's start, so repeated reports of one pinch do not compound. */
  lemma PinchDoesNotCompound(base: TransformState, current: TransformState, factor: real)
    ensures Pinch(Some(base), Pinch(Some(base), current, factor), factor) == Pinch(Some(base), current, factor)
  {
  }

  /** A rotation is relative to the gesture's start as well: repeated reports of one rotation do not add up. */
  lemma RotateDoesNotCompound(base: TransformState, current: TransformState, radians: real)
    ensures Rotate(Some(base), Rotate(Some(base), current, radians), radians) == Rotate(Some(base), current, radians)
  {
  }

  // ---------------------------------------------------------------------------
  // The gesture coordinator

  /** A recogniser's state in one callback; `Ended` stands for ended, cancelled and failed. */
  datatype Phase = Began | Changed | Ended

  /** What one recogniser reports, cumulative since that recogniser began. */
  datatype Report = PanReport(translation: Point) | PinchReport(factor: real) | RotateReport(radians: real)

  /**
   * The coordinator: one start state shared by its three recognisers, and the
   * transform its binding's getter returns, which is the item as of the last
   * render. Writes go to the editor; the getter sees them only after the view
   * renders again and hands the coordinator a fresh binding.
   */
  datatype Coordinator = Coordinator(base: Option<TransformState>, shown: TransformState)

  /** The coordinator after a callback, and the transform the callback wrote through the binding, if any. */
  datatype Handled = Handled(coordinator: Coordinator, written: Option<TransformState>)

  function ApplyReport(base: Option<TransformState>, current: TransformState, report: Report, canvas: Size): TransformState {
    match report
    case PanReport(t) => Pan(base, current, t, canvas)
    case PinchReport(f) => Pinch(base, current, f)
    case RotateReport(a) => Rotate(base, current, a)
  }

  /**
   * One handler call: `beginIfNeeded` takes the shown state as the shared
   * base when any recogniser begins, the report is applied to the shown state
   * relative to that base and written, and `endIfNeeded` drops the base when
   * any recogniser ends. Without a base nothing is written.
   */
  function Handle(c: Coordinator, report: Report, phase: Phase, canvas: Size): (r: Handled)
    ensures phase == Began ==> r.coordinator.base == Some(c.shown)
    ensures phase == Changed ==> r.coordinator.base == c.base
    ensures phase == Ended ==> r.coordinator.base.None?
    ensures r.coordinator.shown == c.shown
    ensures r.written.None? <==> phase != Began && c.base.None?
    ensures phase == Began ==> r.written == Some(ApplyReport(Some(c.shown), c.shown, report, canvas))
    ensures phase != Began && c.base.Some? ==> r.written == Some(ApplyReport(c.base, c.shown, report, canvas))
  {
    var base := if phase == Began then Some(c.shown) else c.base;
    var written := if base.None? then None else Some(ApplyReport(base, c.shown, report, canvas));
    Handled(Coordinator(if phase == Ended then None else base, c.shown), written)
  }

  /** `updateUIView`: a render hands the coordinator a binding that reads the item as it now is. */
  function Render(c: Coordinator, item: TransformState): (r: Coordinator)
    ensures r.base == c.base && r.shown == item
  {
    c.(shown := item)
  }

  /** A handler call with a render after it, so that the next callback reads what this one wrote. */
  function Step(c: Coordinator, report: Report, phase: Phase, canvas: Size): (r: Handled)
    ensures r.written == Handle(c, report, phase, canvas).written
    ensures r.coordinator.base == Handle(c, report, phase, canvas).coordinator.base
    ensures r.coordinator.shown == r.written.GetOr(c.shown)
  {
    var h := Handle(c, report, phase, canvas);
    Handled(Render(h.coordinator, h.written.GetOr(c.shown)), h.written)
  }

  /** With a render after each call and no other recogniser beginning, repeating a report changes nothing more. */
  lemma RepeatedReportIsStable(c: Coordinator, report: Report, canvas: Size)
    ensures var once := Step(c, report, Changed, canvas);
      Step(once.coordinator, report, Changed, canvas) == once
  {
    if c.base.Some? {
      match report
      case PanReport(t) =>
      case PinchReport(f) => PinchDoesNotCompound(c.base.value, c.shown, f);
      case RotateReport(a) => RotateDoesNotCompound(c.base.value, c.shown, a);
    }
  }

  /**
   * The base is shared, so a rotation that begins during a pinch re-bases it
   * on the pinched scale, and the pinch's next report of the same cumulative
   * factor doubles the scale again.
   */
  lemma RotationStartCompoundsPinch(canvas: Size)
    ensures var start := TransformState(Point(0.5, 0.5), 0.0, 1.0);
      var pinched := Step(Coordinator(Some(start), start), PinchReport(2.0), Changed, canvas);
      var rebased := Step(pinched.coordinator, RotateReport(0.0), Began, canvas);
      pinched.written.value.scale == 2.0
      && Step(rebased.coordinator, PinchReport(2.0), Changed, canvas).written.value.scale == 4.0
  {
  }

  /** In the same way, a pinch that begins during a pan makes the pan's translation count twice. */
  lemma PinchStartRepeatsPan()
    ensures var canvas := Size(100.0, 100.0);
      var start := TransformState(Point(0.25, 0.25), 0.0, 1.0);
      var panned := Step(Coordinator(Some(start), start), PanReport(Point(10.0, 0.0)), Changed, canvas);
      var rebased := Step(panned.coordinator, PinchReport(1.0), Began, canvas);
      panned.written.value.position == Point(0.35, 0.25)
      && Step(rebased.coordinator, PanReport(Point(10.0, 0.0)), Changed, canvas).written.value.position
         == Point(0.45, 0.25)
  {
  }

  /**
   * Without a render between them, a pan and a pinch of one touch event both
   * read the same shown state: the pinch writes the old position back, and the
   * pan's move is lost.
   */
  lemma SameEventPinchRevertsPan()
    ensures var canvas := Size(100.0, 100.0);
      var start := TransformState(Point(0.25, 0.25), 0.0, 1.0);
      var panned := Handle(Coordinator(Some(start), start), PanReport(Point(10.0, 0.0)), Changed, canvas);
      var pinched := Handle(panned.coordinator, PinchReport(2.0), Changed, canvas);
      panned.written.value.position == Point(0.35, 0.25)
      && pinched.written == Some(TransformState(Point(0.25, 0.25), 0.0, 2.0))
  {
  }
}

=== FILE: date_format.dfy ===
/**
 * The date handling of the API client: the JSON decoder accepts a response date
 * string in exactly two fixed UTC layouts, `yyyy-MM-dd'T'HH:mm:ss'Z'` (tried first)
 * and `yyyy-MM-dd'T'HH:mm:ss.SSS'Z'`, and the JSON encoder writes request dates as
 * `yyyy-MM-dd'T'HH:mm:ss` with no zone suffix.
 *
 * A layout is a sequence of tokens, as a date formatter reads its format string:
 * a literal character, or a zero-padded decimal field of fixed width. `Match` is the
 * character-level recogniser and `Render` its inverse.
 */
module DateFormat {
  import opened Wrappers

  /** One element of a fixed layout. */
  datatype Token = Lit(c: char) | Num(width: nat)

  /** A calendar instant in UTC, to the millisecond. */
  datatype DateTime = DateTime(year: int, month: int, day: int,
                               hour: int, minute: int, second: int, millis: int)

  // ---------------------------------------------------------------------------
  // Decimal digits

  function Pow10(n: nat): (r: nat)
    ensures r >= 1
  {
    if n == 0 then 1 else 10 * Pow10(n - 1)
  }

  predicate IsDigit(c: char) {
    '0' <= c <= '9'
  }

  predicate AllDigits(s: string) {
    forall i :: 0 <= i < |s| ==> IsDigit(s[i])
  }

  function DigitChar(n: int): (c: char)
    requires 0 <= n <= 9
    ensures IsDigit(c)
    ensures c as int - '0' as int == n
  {
    ('0' as int + n) as char
  }

  /** The value of a string of decimal digits, most significant first. */
  function Value(s: string): (r: int)
    requires AllDigits(s)
    ensures 0 <= r < Pow10(|s|)
  {
    if |s| == 0 then 0
    else 10 * Value(s[..|s| - 1]) + (s[|s| - 1] as int - '0' as int)
  }

  /** `n` written in exactly `width` digits, with leading zeros. */
  function Fixed(n: int, width: nat): (s: string)
    requires 0 <= n < Pow10(width)
    ensures |s| == width && AllDigits(s)
  {
    if width == 0 then ""
    else Fixed(n / 10, width - 1) + [DigitChar(n % 10)]
  }

  lemma {:induction false} ValueOfFixed(n: int, width: nat)
    requires 0 <= n < Pow10(width)
    ensures Value(Fixed(n, width)) == n
  {
    if width > 0 {
      var s := Fixed(n, width);
      assert s[..width - 1] == Fixed(n / 10, width - 1);
      ValueOfFixed(n / 10, width - 1);
    }
  }

  lemma {:induction false} FixedOfValue(s: string)
    requires AllDigits(s)
    ensures Fixed(Value(s), |s|) == s
  {
    if |s| > 0 {
      var init := s[..|s| - 1];
      var d := s[|s| - 1] as int - '0' as int;
      var v := Value(s);
      assert v == 10 * Value(init) + d;
      assert v / 10 == Value(init) && v % 10 == d;
      FixedOfValue(init);
      assert s == init + [s[|s| - 1]];
    }
  }

  // ---------------------------------------------------------------------------
  // Layouts

  /** The widths of the numeric fields of a layout, in order. */
  function Widths(p: seq<Token>): seq<nat> {
    if |p| == 0 then []
    else (match p[0] case Num(w) => [w] case Lit(_) => []) + Widths(p[1..])
  }

  /** The number of characters every string of the layout has. */
  function Width(p: seq<Token>): nat {
    if |p| == 0 then 0
    else (match p[0] case Num(w) => w case Lit(_) => 1) + Width(p[1..])
  }

  /** `f` supplies one value per numeric field, each small enough for its width. */
  predicate Fits(p: seq<Token>, f: seq<int>) {
    && |f| == |Widths(p)|
    && forall i :: 0 <= i < |f| ==> 0 <= f[i] < Pow10(Widths(p)[i])
  }

  /** Recognises `s` against the layout and returns its numeric fields. */
  function Match(p: seq<Token>, s: string): (r: Option<seq<int>>)
    ensures r.Some? ==> |s| == Width(p) && |r.value| == |Widths(p)|
  {
    if |p| == 0 then
      if |s| == 0 then Some([]) else None
    else
      match p[0]
      case Lit(c) =>
        if |s| > 0 && s[0] == c then Match(p[1..], s[1..]) else None
      case Num(w) =>
        if w <= |s| && AllDigits(s[..w]) then
          match Match(p[1..], s[w..])
          case Some(rest) => Some([Value(s[..w])] + rest)
          case None => None
        else None
  }

  /** Writes the fields into the layout. */
  function Render(p: seq<Token>, f: seq<int>): (s: string)
    requires Fits(p, f)
    ensures |s| == Width(p)
  {
    if |p| == 0 then ""
    else
      match p[0]
      case Lit(c) => [c] + Render(p[1..], f)
      case Num(w) =>
        assert Fits(p[1..], f[1..]) by {
          forall i | 0 <= i < |f[1..]|
            ensures 0 <= f[1..][i] < Pow10(Widths(p[1..])[i])
          {
            assert f[1..][i] == f[i + 1];
          }
        }
        Fixed(f[0], w) + Render(p[1..], f[1..])
  }

  /** Rendering and then recognising gives the fields back. */
  lemma {:induction false} MatchRender(p: seq<Token>, f: seq<int>)
    requires Fits(p, f)
    ensures Match(p, Render(p, f)) == Some(f)
  {
    if |p| > 0 {
      match p[0]
      case Lit(c) =>
        MatchRender(p[1..], f);
      case Num(w) =>
        assert Fits(p[1..], f[1..]) by {
          forall i | 0 <= i < |f[1..]|
            ensures 0 <= f[1..][i] < Pow10(Widths(p[1..])[i])
          {
            assert f[1..][i] == f[i + 1];
          }
        }
        var head := Fixed(f[0], w);
        var s := Render(p, f);
        assert s == head + Render(p[1..], f[1..]);
        assert s[..w] == head && s[w..] == Render(p[1..], f[1..]);
        ValueOfFixed(f[0], w);
        MatchRender(p[1..], f[1..]);
        assert [f[0]] + f[1..] == f;
    }
  }

  /** Whatever the recogniser accepts is exactly the rendering of its fields. */
  lemma {:induction false} RenderMatch(p: seq<Token>, s: string)
    requires Match(p, s).Some?
    ensures Fits(p, Match(p, s).value)
    ensures Render(p, Match(p, s).value) == s
  {
    if |p| > 0 {
      match p[0]
      case Lit(c) =>
        RenderMatch(p[1..], s[1..]);
        assert s == [c] + s[1..];
      case Num(w) =>
        var rest := Match(p[1..], s[w..]).value;
        RenderMatch(p[1..], s[w..]);
        var f := Match(p, s).value;
        assert f == [Value(s[..w])] + rest;
        assert f[1..] == rest;
        FixedOfValue(s[..w]);
        assert s == s[..w] + s[w..];
    }
  }

  // ---------------------------------------------------------------------------
  // The three layouts the client uses

  lemma {:induction false} WidthsAppend(a: seq<Token>, b: seq<Token>)
    ensures Widths(a + b) == Widths(a) + Widths(b)
    ensures Width(a + b) == Width(a) + Width(b)
  {
    if |a| > 0 {
      assert (a + b)[0] == a[0];
      assert (a + b)[1..] == a[1..] + b;
      WidthsAppend(a[1..], b);
      var h := match a[0] case Num(w) => [w] case Lit(_) => [];
      assert Widths(a + b) == h + Widths(a[1..] + b);
    } else {
      assert a + b == b;
    }
  }

  /** `yyyy-MM-dd` */
  const DatePart: seq<Token> := [Num(4), Lit('-'), Num(2), Lit('-'), Num(2)]

  /** `'T'HH:mm:ss` */
  const TimePart: seq<Token> := [Lit('T'), Num(2), Lit(':'), Num(2), Lit(':'), Num(2)]

  /** `.SSS` */
  const FractionPart: seq<Token> := [Lit('.'), Num(3)]

  /** `yyyy-MM-dd'T'HH:mm:ss`: the request (encoding) layout. */
  const Outgoing: seq<Token> := DatePart + TimePart

  /** `yyyy-MM-dd'T'HH:mm:ss'Z'`: the first response layout. */
  const WholeSecondsZ: seq<Token> := Outgoing + [Lit('Z')]

  /** `yyyy-MM-dd'T'HH:mm:ss.SSS'Z'`: the second response layout. */
  const MillisecondsZ: seq<Token> := Outgoing + FractionPart + [Lit('Z')]

  lemma LayoutFacts()
    ensures Widths(Outgoing) == [4, 2, 2, 2, 2, 2] && Width(Outgoing) == 19
    ensures Widths(WholeSecondsZ) == [4, 2, 2, 2, 2, 2] && Width(WholeSecondsZ) == 20
    ensures Widths(MillisecondsZ) == [4, 2, 2, 2, 2, 2, 3] && Width(MillisecondsZ) == 24
  {
    assert Widths(DatePart) == [4, 2, 2] && Width(DatePart) == 10;
    assert Widths(TimePart) == [2, 2, 2] && Width(TimePart) == 9;
    assert Widths(FractionPart) == [3] && Width(FractionPart) == 4;
    assert Widths([Lit('Z')]) == [] && Width([Lit('Z')]) == 1;
    WidthsAppend(DatePart, TimePart);
    WidthsAppend(Outgoing, [Lit('Z')]);
    WidthsAppend(Outgoing, FractionPart);
    WidthsAppend(Outgoing + FractionPart, [Lit('Z')]);
  }

  // ---------------------------------------------------------------------------
  // Calendar validity

  predicate IsLeapYear(y: int) {
    (y % 4 == 0 && y % 100 != 0) || y % 400 == 0
  }

  function DaysInMonth(y: int, m: int): (n: int)
    requires 1 <= m <= 12
    ensures 28 <= n <= 31
  {
    if m == 2 then (if IsLeapYear(y) then 29 else 28)
    else if m == 4 || m == 6 || m == 9 || m == 11 then 30
    else 31
  }

  /** A date the formatter accepts: four-digit year, real calendar day, no leap second. */
  predicate Valid(d: DateTime) {
    && 0 <= d.year <= 9999
    && 1 <= d.month <= 12
    && 1 <= d.day <= DaysInMonth(d.year, d.month)
    && 0 <= d.hour <= 23
    && 0 <= d.minute <= 59
    && 0 <= d.second <= 59
    && 0 <= d.millis <= 999
  }

  function SecondFields(d: DateTime): seq<int> {
    [d.year, d.month, d.day, d.hour, d.minute, d.second]
  }

  function MillisecondFields(d: DateTime): seq<int> {
    SecondFields(d) + [d.millis]
  }

  lemma ValidFits(d: DateTime)
    requires Valid(d)
    ensures Fits(Outgoing, SecondFields(d))
    ensures Fits(WholeSecondsZ, SecondFields(d))
    ensures Fits(MillisecondsZ, MillisecondFields(d))
  {
    LayoutFacts();
  }

  // ---------------------------------------------------------------------------
  // Formatting

  /** A request date as the JSON encoder writes it; milliseconds are dropped. */
  function FormatOutgoing(d: DateTime): (s: string)
    requires Valid(d)
    ensures |s| == 19
  {
    ValidFits(d);
    LayoutFacts();
    Render(Outgoing, SecondFields(d))
  }

  function FormatWholeSecondsZ(d: DateTime): (s: string)
    requires Valid(d)
    ensures |s| == 20
  {
    ValidFits(d);
    LayoutFacts();
    Render(WholeSecondsZ, SecondFields(d))
  }

  function FormatMillisecondsZ(d: DateTime): (s: string)
    requires Valid(d)
    ensures |s| == 24
  {
    ValidFits(d);
    LayoutFacts();
    Render(MillisecondsZ, MillisecondFields(d))
  }

  // ---------------------------------------------------------------------------
  // Decoding

  /** Recognises one layout; whole-second layouts give zero milliseconds. */
  function ParseWith(p: seq<Token>, s: string): (r: Option<DateTime>)
    requires p == WholeSecondsZ || p == MillisecondsZ
    ensures r.Some? ==> Valid(r.value)
  {
    LayoutFacts();
    match Match(p, s)
    case None => None
    case Some(f) =>
      var d := DateTime(f[0], f[1], f[2], f[3], f[4], f[5], if |f| == 7 then f[6] else 0);
      if Valid(d) then Some(d) else None
  }

  const DecodeErrorPrefix := "Cannot decode date string "

  /**
   * The custom date strategy of the response decoder: the whole-second layout is
   * tried first, then the millisecond layout, and otherwise decoding fails with a
   * message naming the string.
   */
  function DecodeDate(s: string): (r: Result<DateTime, string>)
    ensures r.Success? ==> Valid(r.value) && (|s| == 20 || |s| == 24)
    ensures r.Failure? ==> r.error == DecodeErrorPrefix + s
  {
    LayoutFacts();
    match ParseWith(WholeSecondsZ, s)
    case Some(d) => Success(d)
    case None =>
      match ParseWith(MillisecondsZ, s)
      case Some(d) => Success(d)
      case None => Failure(DecodeErrorPrefix + s)
  }

  /** A whole-second response date decodes to its instant, with zero milliseconds. */
  lemma DecodeWholeSeconds(d: DateTime)
    requires Valid(d)
    ensures DecodeDate(FormatWholeSecondsZ(d)) == Success(d.(millis := 0))
  {
    ValidFits(d);
    MatchRender(WholeSecondsZ, SecondFields(d));
  }

  /** A millisecond response date decodes to exactly its instant. */
  lemma DecodeMilliseconds(d: DateTime)
    requires Valid(d)
    ensures DecodeDate(FormatMillisecondsZ(d)) == Success(d)
  {
    ValidFits(d);
    LayoutFacts();
    MatchRender(MillisecondsZ, MillisecondFields(d));
  }

  /**
   * Decoding accepts nothing but the two layouts: every accepted string is the
   * whole-second rendering (with zero milliseconds) or the millisecond rendering
   * of the decoded instant.
   */
  lemma DecodeOnlyTwoShapes(s: string)
    requires DecodeDate(s).Success?
    ensures var d := DecodeDate(s).value;
      (d.millis == 0 && s == FormatWholeSecondsZ(d)) || s == FormatMillisecondsZ(d)
  {
    LayoutFacts();
    var d := DecodeDate(s).value;
    if ParseWith(WholeSecondsZ, s).Some? {
      var f := Match(WholeSecondsZ, s).value;
      RenderMatch(WholeSecondsZ, s);
      assert |f| == 6;
      assert f == SecondFields(d);
    } else {
      var f := Match(MillisecondsZ, s).value;
      RenderMatch(MillisecondsZ, s);
      assert |f| == 7;
      assert f == MillisecondFields(d);
    }
  }

  /** The client's own request dates carry no `Z`, so its decoder rejects them. */
  lemma OutgoingNotAccepted(d: DateTime)
    requires Valid(d)
    ensures DecodeDate(FormatOutgoing(d)).Failure?
  {
  }
}

=== FILE: endpoints.dfy ===
/**
 * The endpoint descriptors of the API package: the `Endpoint` protocol, whose
 * `body` and `multipartData` default to nil in a protocol extension, and the four
 * closed enums `Devices`, `Users`, `Homes` and `Messages` that conform to it.
 * Every variant yields a relative path, a query-item list, an optional JSON body
 * and a canned mock value.
 */
module Endpoints {
  import opened Wrappers
  import opened Models
  import opened Paths
  import opened DateFormat

  datatype QueryItem = QueryItem(name: string, value: Option<string>)

  /** The encodable request payloads the shown endpoints submit. */
  datatype Body =
    | RegisterDeviceBody(registerDevice: RegisterDeviceRequest)
    | CreateUserBody(createUser: CreateUserRequest)

  /** A multipart payload: the encoded bytes travel with the boundary they use. */
  datatype Multipart = Multipart(data: seq<bv8>, boundary: string)

  /** A canned success value, tagged with the type a live call would decode. */
  datatype Mock =
    | DeviceMock(device: DeviceDTO)
    | DeviceListMock(devices: seq<DeviceDTO>)
    | TextMock(text: string)
    | HomeMock(home: HomeDTO)
    | UserMock(user: UserDTO)
    | UserListMock(users: seq<UserDTO>)
    | MessageMock(message: MessageResponse)

  datatype Devices =
    | My
    | Register(address: string, name: string, width: int, height: int)
    | Delete(id: string)

  datatype Users =
    | GetForHome(homeId: string, code: string)
    | AuthAs(userId: string, code: string)
    | Create(userName: string, homeId: string)

  datatype Homes = GetForCode(code: string)

  datatype Messages = Clear(deviceId: string)

  /** Any value of one of the four conforming enums. */
  datatype Endpoint =
    | DevicesEndpoint(devices: Devices)
    | UsersEndpoint(users: Users)
    | HomesEndpoint(homes: Homes)
    | MessagesEndpoint(messages: Messages)

  /**
   * What a conforming type declares: its required members, and for each
   * optional member either its own definition (`Some`) or nothing (`None`),
   * in which case the protocol extension's default applies.
   */
  datatype Conformance = Conformance(
    path: string,
    queryItems: Option<seq<QueryItem>>,
    bodyOverride: Option<Option<Body>>,
    multipartOverride: Option<Option<Multipart>>)

  /** An endpoint as the client sees it, every member resolved. */
  datatype Descriptor = Descriptor(
    path: string,
    queryItems: Option<seq<QueryItem>>,
    body: Option<Body>,
    multipartData: Option<Multipart>)

  /** Applies the protocol extension: a member the type does not define is nil. */
  function Resolve(c: Conformance): (d: Descriptor)
    ensures d.path == c.path && d.queryItems == c.queryItems
    ensures c.bodyOverride.None? ==> d.body.None?
    ensures c.multipartOverride.None? ==> d.multipartData.None?
    ensures c.bodyOverride.Some? ==> d.body == c.bodyOverride.value
    ensures c.multipartOverride.Some? ==> d.multipartData == c.multipartOverride.value
  {
    Descriptor(c.path, c.queryItems, c.bodyOverride.GetOr(None), c.multipartOverride.GetOr(None))
  }

  // ---------------------------------------------------------------------------
  // Devices

  function DevicesPath(d: Devices): string {
    match d
    case My => "devices"
    case Register(_, _, _, _) => "devices"
    case Delete(id) => "devices/" + id
  }

  function DevicesBody(d: Devices): Option<Body> {
    match d
    case Register(address, name, width, height) =>
      Some(RegisterDeviceBody(RegisterDeviceRequest(address, name, width, height)))
    case _ => None
  }

  function DevicesMock(d: Devices, now: DateTime): Mock {
    match d
    case Register(_, _, _, _) => DeviceMock(DefaultDevice(now))
    case Delete(_) => TextMock("")
    case My =>
      DeviceListMock([
        DefaultDevice(now).(id := "A", name := "Tom's Device", ownerUserId := "2", homeId := "1"),
        DefaultDevice(now).(id := "B", name := "Tom's Small Device", ownerUserId := "2", homeId := "1",
                            ble := DefaultDevice(now).ble.(width := 300, height := 100))
      ])
  }

  // ---------------------------------------------------------------------------
  // Users

  function UsersPath(u: Users): string {
    match u
    case GetForHome(homeId, code) => "users/home/" + homeId + "/" + code
    case AuthAs(userId, code) => "users/auth/" + userId + "/home/" + code
    case Create(_, _) => "users"
  }

  function UsersBody(u: Users): Option<Body> {
    match u
    case Create(name, home) => Some(CreateUserBody(CreateUserRequest(name, home)))
    case _ => None
  }

  function UsersMock(u: Users): Mock {
    match u
    case AuthAs(_, _) => UserMock(DefaultUser)
    case GetForHome(_, _) =>
      UserListMock([DefaultUser.(id := "2", name := "Tom"), DefaultUser.(id := "3", name := "Maja")])
    case Create(_, _) => UserMock(DefaultUser)
  }

  // ---------------------------------------------------------------------------
  // Homes and Messages

  function HomesPath(h: Homes): string {
    match h
    case GetForCode(code) => "homes/" + code
  }

  function MessagesPath(m: Messages): string {
    match m
    case Clear(deviceId) => "/messages/" + deviceId + "/clear"
  }

  // ---------------------------------------------------------------------------
  // The protocol members, dispatched over the four enums

  /** Every shown enum defines `body` itself and none defines `multipartData`. */
  function Conform(e: Endpoint): Conformance {
    match e
    case DevicesEndpoint(d) => Conformance(DevicesPath(d), Some([]), Some(DevicesBody(d)), None)
    case UsersEndpoint(u) => Conformance(UsersPath(u), Some([]), Some(UsersBody(u)), None)
    case HomesEndpoint(h) => Conformance(HomesPath(h), Some([]), Some(None), None)
    case MessagesEndpoint(m) => Conformance(MessagesPath(m), Some([]), Some(None), None)
  }

  function Describe(e: Endpoint): Descriptor {
    Resolve(Conform(e))
  }

  function Path(e: Endpoint): string {
    Describe(e).path
  }

  function MockResponseOk(e: Endpoint, now: DateTime): Mock {
    match e
    case DevicesEndpoint(d) => DevicesMock(d, now)
    case UsersEndpoint(u) => UsersMock(u)
    case HomesEndpoint(_) => HomeMock(DefaultHome)
    case MessagesEndpoint(_) => MessageMock(MessageResponse(true))
  }

  // ---------------------------------------------------------------------------
  // Properties

  /** No shown endpoint carries a multipart payload, so at most one body kind is present. */
  lemma NoMultipartPayload(e: Endpoint)
    ensures Describe(e).multipartData.None?
    ensures !(Describe(e).body.Some? && Describe(e).multipartData.Some?)
  {
  }

  /** Every shown endpoint's query-item list is present and empty. */
  lemma QueryItemsAlwaysEmpty(e: Endpoint)
    ensures Describe(e).queryItems == Some([])
  {
  }

  /** The endpoint a JSON body was built for: the body's fields are the variant's arguments. */
  function EndpointOfBody(b: Body): Endpoint {
    match b
    case RegisterDeviceBody(r) => DevicesEndpoint(Register(r.address, r.name, r.width, r.height))
    case CreateUserBody(r) => UsersEndpoint(Create(r.name, r.homeId))
  }

  /**
   * An endpoint has a JSON body exactly when it is `Devices.register` or
   * `Users.create`, and that body carries the variant's arguments unchanged.
   */
  lemma BodyIffSubmitting(e: Endpoint, b: Body)
    ensures Describe(e).body == Some(b) <==> e == EndpointOfBody(b)
    ensures Describe(e).body.Some? <==> (e.DevicesEndpoint? && e.devices.Register?) || (e.UsersEndpoint? && e.users.Create?)
  {
  }

  /** The path segments of each variant, as the server's route table lists them. */
  function Segments(e: Endpoint): seq<string> {
    match e
    case DevicesEndpoint(My) => ["devices"]
    case DevicesEndpoint(Register(_, _, _, _)) => ["devices"]
    case DevicesEndpoint(Delete(id)) => ["devices", id]
    case UsersEndpoint(GetForHome(homeId, code)) => ["users", "home", homeId, code]
    case UsersEndpoint(AuthAs(userId, code)) => ["users", "auth", userId, "home", code]
    case UsersEndpoint(Create(_, _)) => ["users"]
    case HomesEndpoint(GetForCode(code)) => ["homes", code]
    case MessagesEndpoint(Clear(deviceId)) => ["", "messages", deviceId, "clear"]
  }

  /** The caller values a variant interpolates into its path, in order. */
  function PathArguments(e: Endpoint): seq<string> {
    match e
    case DevicesEndpoint(Delete(id)) => [id]
    case UsersEndpoint(GetForHome(homeId, code)) => [homeId, code]
    case UsersEndpoint(AuthAs(userId, code)) => [userId, code]
    case HomesEndpoint(GetForCode(code)) => [code]
    case MessagesEndpoint(Clear(deviceId)) => [deviceId]
    case _ => []
  }

  predicate ArgumentsSlashFree(e: Endpoint) {
    forall i :: 0 <= i < |PathArguments(e)| ==> NoSlash(PathArguments(e)[i])
  }

  /** Each path is its segments joined by `/`. */
  lemma PathIsJoinedSegments(e: Endpoint)
    ensures Path(e) == Join(Segments(e))
  {
    match e
    case DevicesEndpoint(d) =>
    case UsersEndpoint(GetForHome(homeId, code)) => JoinedForHome(homeId, code);
    case UsersEndpoint(AuthAs(userId, code)) => JoinedAuthAs(userId, code);
    case UsersEndpoint(Create(_, _)) =>
    case HomesEndpoint(_) =>
    case MessagesEndpoint(Clear(deviceId)) => JoinedClear(deviceId);
  }

  lemma JoinedForHome(homeId: string, code: string)
    ensures Join(["users", "home", homeId, code]) == "users/home/" + homeId + "/" + code
  {
    var segs := ["users", "home", homeId, code];
    assert Join(segs[2..]) == homeId + "/" + code;
    assert Join(segs[1..]) == "home" + "/" + (homeId + "/" + code);
    assert "users/home/" + homeId + "/" + code == "users" + "/" + ("home" + "/" + (homeId + "/" + code));
  }

  lemma JoinedAuthAs(userId: string, code: string)
    ensures Join(["users", "auth", userId, "home", code]) == "users/auth/" + userId + "/home/" + code
  {
    var segs := ["users", "auth", userId, "home", code];
    assert Join(segs[3..]) == "home" + "/" + code;
    assert Join(segs[2..]) == userId + "/" + ("home" + "/" + code);
    assert Join(segs[1..]) == "auth" + "/" + (userId + "/" + ("home" + "/" + code));
    assert "users/auth/" + userId + "/home/" + code
        == "users" + "/" + ("auth" + "/" + (userId + "/" + ("home" + "/" + code)));
  }

  lemma JoinedClear(deviceId: string)
    ensures Join(["", "messages", deviceId, "clear"]) == "/messages/" + deviceId + "/clear"
  {
    var segs := ["", "messages", deviceId, "clear"];
    assert Join(segs[2..]) == deviceId + "/" + "clear";
    assert Join(segs[1..]) == "messages" + "/" + (deviceId + "/" + "clear");
    assert "/messages/" + deviceId + "/clear" == "" + "/" + ("messages" + "/" + (deviceId + "/" + "clear"));
  }

  /**
   * Splitting a path at its slashes gives the route's segments, with every caller
   * value in its place verbatim, provided the values hold no slash.
   */
  lemma PathSegments(e: Endpoint)
    requires ArgumentsSlashFree(e)
    ensures Split(Path(e)) == Segments(e)
  {
    PathIsJoinedSegments(e);
    var segs := Segments(e);
    assert forall i :: 0 <= i < |segs| ==> NoSlash(segs[i]) by {
      match e
      case DevicesEndpoint(Delete(id)) => assert PathArguments(e)[0] == id;
      case UsersEndpoint(GetForHome(h, c)) => assert PathArguments(e)[0] == h && PathArguments(e)[1] == c;
      case UsersEndpoint(AuthAs(u, c)) => assert PathArguments(e)[0] == u && PathArguments(e)[1] == c;
      case HomesEndpoint(GetForCode(c)) => assert PathArguments(e)[0] == c;
      case MessagesEndpoint(Clear(d)) => assert PathArguments(e)[0] == d;
      case _ =>
    }
    SplitJoin(segs);
  }

  /** Two endpoints with slash-free arguments and the same path interpolate the same values. */
  lemma SamePathSameArguments(e1: Endpoint, e2: Endpoint)
    requires ArgumentsSlashFree(e1) && ArgumentsSlashFree(e2)
    requires Path(e1) == Path(e2)
    ensures PathArguments(e1) == PathArguments(e2)
  {
    PathSegments(e1);
    PathSegments(e2);
    assert Segments(e1) == Segments(e2);
  }

  /** A slash inside a caller value makes two different requests share a path. */
  lemma SlashInArgumentIsAmbiguous()
    ensures Path(UsersEndpoint(GetForHome("a/b", "c"))) == Path(UsersEndpoint(GetForHome("a", "b/c")))
  {
    assert "users/home/" + "a/b" + "/" + "c" == "users/home/" + "a" + "/" + "b/c";
  }

  /** No path begins with `//`, and only `Messages.clear` begins with `/` at all. */
  lemma LeadingSlash(e: Endpoint)
    ensures |Path(e)| >= 2 && !(Path(e)[0] == '/' && Path(e)[1] == '/')
    ensures Path(e)[0] == '/' <==> e.MessagesEndpoint?
  {
    match e
    case DevicesEndpoint(Delete(id)) => assert Path(e)[0] == 'd';
    case DevicesEndpoint(_) =>
    case UsersEndpoint(GetForHome(h, c)) => assert Path(e)[0] == 'u';
    case UsersEndpoint(AuthAs(u, c)) => assert Path(e)[0] == 'u';
    case UsersEndpoint(_) =>
    case HomesEndpoint(GetForCode(c)) => assert Path(e)[0] == 'h';
    case MessagesEndpoint(Clear(d)) => assert Path(e)[0] == '/' && Path(e)[1] == 'm';
  }

  /**
   * The type the app's call site decodes from a live response to each
   * variant. `Devices.delete` has none: its only call goes through
   * `delete`, which reads the status code and decodes nothing.
   * `Messages.clear` has none either: no call site for it exists.
   */
  function DecodedAtCallSite(e: Endpoint): Option<string> {
    match e
    case DevicesEndpoint(My) => Some("[DeviceDTO]")
    case DevicesEndpoint(Register(_, _, _, _)) => Some("DeviceDTO")
    case DevicesEndpoint(Delete(_)) => None
    case UsersEndpoint(GetForHome(_, _)) => Some("[UserDTO]")
    case UsersEndpoint(_) => Some("UserDTO")
    case HomesEndpoint(_) => Some("HomeDTO")
    case MessagesEndpoint(_) => None
  }

  function MockKind(m: Mock): string {
    match m
    case DeviceMock(_) => "DeviceDTO"
    case DeviceListMock(_) => "[DeviceDTO]"
    case TextMock(_) => "String"
    case HomeMock(_) => "HomeDTO"
    case UserMock(_) => "UserDTO"
    case UserListMock(_) => "[UserDTO]"
    case MessageMock(_) => "MessageResponse"
  }

  /**
   * Wherever the app decodes a response, the mock has the type that call
   * site decodes. The two variants without a decoding call site have mocks
   * of their own: an empty string for delete and an accepted message for clear.
   */
  lemma MockMatchesCallSite(e: Endpoint, now: DateTime)
    ensures DecodedAtCallSite(e).Some? ==> MockKind(MockResponseOk(e, now)) == DecodedAtCallSite(e).value
    ensures DecodedAtCallSite(e).None? <==> (e.DevicesEndpoint? && e.devices.Delete?) || e.MessagesEndpoint?
    ensures e.DevicesEndpoint? && e.devices.Delete? ==> MockResponseOk(e, now) == TextMock("")
    ensures e.MessagesEndpoint? ==> MockResponseOk(e, now).MessageMock? && MockResponseOk(e, now).message.accepted
  {
  }

  /** The fixture values the mocks promise. */
  lemma MockFixtures(now: DateTime, id: string, homeId: string, code: string)
    ensures var m := MockResponseOk(DevicesEndpoint(My), now);
      m.DeviceListMock? && |m.devices| == 2 && m.devices[0].id == "A" && m.devices[1].id == "B"
      && m.devices[1].ble.width == 300 && m.devices[1].ble.height == 100
    ensures MockResponseOk(DevicesEndpoint(Delete(id)), now) == TextMock("")
    ensures var m := MockResponseOk(UsersEndpoint(GetForHome(homeId, code)), now);
      m.UserListMock? && |m.users| == 2 && m.users[0].id == "2" && m.users[1].id == "3"
    ensures MockResponseOk(HomesEndpoint(GetForCode(code)), now) == HomeMock(DefaultHome)
    ensures MockResponseOk(MessagesEndpoint(Clear(id)), now).message.accepted
  {
  }
}

=== FILE: image_base64.dfy ===
/**
 * `Image(base64JPEG:)`: a device preview arrives as a JPEG data URL or as bare
 * base64 text; the data-URL prefix is dropped before decoding, and anything
 * that does not decode to an image shows the "error" system symbol. Base64
 * decoding and image decoding are foreign code and enter as functions.
 */
module ImageBase64 {
  import opened Wrappers

  type Bytes = seq<bv8>

  /** The view's image: decoded picture data, or a named system symbol. */
  datatype Image = Picture(data: Bytes) | SystemSymbol(name: string)

  const FallbackSymbol := "error"

  const DataUrlPrefix := "data:image/jpeg;base64,"

  predicate HasPrefix(s: string, prefix: string) {
    |prefix| <= |s| && s[..|prefix|] == prefix
  }

  /** The base64 payload: the input without the prefix when it starts with it, else the input. */
  function Payload(dataUrl: string): (r: string)
    ensures HasPrefix(dataUrl, DataUrlPrefix) ==> DataUrlPrefix + r == dataUrl
    ensures !HasPrefix(dataUrl, DataUrlPrefix) ==> r == dataUrl
    ensures |r| <= |dataUrl| && r == dataUrl[|dataUrl| - |r|..]
  {
    if HasPrefix(dataUrl, DataUrlPrefix) then dataUrl[|DataUrlPrefix|..] else dataUrl
  }

  /** Prefixing a payload and stripping it again gives the payload back, even if it starts with the prefix itself. */
  lemma StripsPrefixOnce(payload: string)
    ensures Payload(DataUrlPrefix + payload) == payload
  {
    var s := DataUrlPrefix + payload;
    assert s[..|DataUrlPrefix|] == DataUrlPrefix;
    assert s[|DataUrlPrefix|..] == payload;
  }

  /** The prefix alone is the empty payload. */
  lemma PrefixAloneIsEmpty()
    ensures Payload(DataUrlPrefix) == ""
  {
    StripsPrefixOnce("");
    assert DataUrlPrefix + "" == DataUrlPrefix;
  }

  /**
   * `init(base64JPEG:)`: the payload's bytes when they decode as base64 and
   * the bytes make an image, else the fallback symbol.
   */
  function MakeImage(dataUrl: string, base64: string -> Option<Bytes>, isImage: Bytes -> bool): (r: Image)
    ensures r.Picture? <==> base64(Payload(dataUrl)).Some? && isImage(base64(Payload(dataUrl)).value)
    ensures r.Picture? ==> r.data == base64(Payload(dataUrl)).value
    ensures r.SystemSymbol? ==> r.name == FallbackSymbol
  {
    match base64(Payload(dataUrl))
    case Some(data) => if isImage(data) then Picture(data) else SystemSymbol(FallbackSymbol)
    case None => SystemSymbol(FallbackSymbol)
  }

  /** A data URL and its bare payload show the same image. */
  lemma PrefixIsOptional(payload: string, base64: string -> Option<Bytes>, isImage: Bytes -> bool)
    requires !HasPrefix(payload, DataUrlPrefix)
    ensures MakeImage(DataUrlPrefix + payload, base64, isImage) == MakeImage(payload, base64, isImage)
  {
    StripsPrefixOnce(payload);
  }
}

=== FILE: keychain.dfy ===
/**
 * `KeychainStore`: the API key kept as one generic-password item of the
 * platform keychain, under a fixed service and account. The keychain calls
 * themselves are not modelled; their status codes are inputs, and the model
 * states what the store does with each.
 */
module Keychain {
  import opened Wrappers

  const Service := "com.tomja.api"
  const Account := "api-key"

  datatype ItemKey = ItemKey(service: string, account: string)

  /** The one item every query of the store names. */
  const Slot := ItemKey(Service, Account)

  /** The generic-password items of the keychain, by service and account. */
  datatype Store = Store(items: map<ItemKey, string>)

  /** What `SecItemAdd` reports. */
  datatype AddStatus = AddSuccess | DuplicateItem | AddFailed(code: int)

  /** What `SecItemUpdate` reports. */
  datatype UpdateStatus = UpdateSuccess | UpdateFailed(code: int)

  /** What `SecItemCopyMatching` reports. */
  datatype CopyStatus = CopySuccess | CopyFailed(code: int)

  datatype SetOutcome = SetOutcome(store: Store, ok: bool, updateAttempted: bool)

  /** The store after the slot is written with `value`, every other item kept. */
  function Written(store: Store, value: string): Store {
    Store(store.items[Slot := value])
  }

  /**
   * `setAPIKey`: adds the item; if it already exists, updates it instead and
   * reports the update's status; any other add failure reports false.
   */
  function SetAPIKey(store: Store, value: string, add: AddStatus, update: UpdateStatus): (r: SetOutcome)
    ensures r.ok <==> add.AddSuccess? || (add.DuplicateItem? && update.UpdateSuccess?)
    ensures r.updateAttempted <==> add.DuplicateItem?
    ensures r.ok ==> Slot in r.store.items && r.store.items[Slot] == value
    ensures !r.ok ==> r.store == store
    ensures forall k :: k != Slot ==>
      (k in r.store.items <==> k in store.items) && (k in store.items ==> r.store.items[k] == store.items[k])
  {
    match add
    case AddSuccess => SetOutcome(Written(store, value), true, false)
    case DuplicateItem =>
      if update.UpdateSuccess? then SetOutcome(Written(store, value), true, true)
      else SetOutcome(store, false, true)
    case AddFailed(_) => SetOutcome(store, false, false)
  }

  /** `getAPIKey`: the slot's value when the lookup succeeds and finds data, else nil. */
  function GetAPIKey(store: Store, copy: CopyStatus): (r: Option<string>)
    ensures r.Some? <==> copy.CopySuccess? && Slot in store.items
    ensures r.Some? ==> r.value == store.items[Slot]
  {
    if copy.CopySuccess? && Slot in store.items then Some(store.items[Slot]) else None
  }

  /** The keychain reports a duplicate exactly when the slot is filled. */
  predicate AddCoherent(store: Store, add: AddStatus) {
    (add.AddSuccess? ==> Slot !in store.items) && (add.DuplicateItem? ==> Slot in store.items)
  }

  /** A successful set followed by a successful get returns the value just set. */
  lemma SetThenGet(store: Store, value: string, add: AddStatus, update: UpdateStatus)
    requires SetAPIKey(store, value, add, update).ok
    ensures GetAPIKey(SetAPIKey(store, value, add, update).store, CopySuccess) == Some(value)
  {
  }

  /**
   * Insert-or-update: when the keychain answers coherently and the add does
   * not fail for another reason, an empty slot is filled by the add and a
   * filled slot is overwritten by the update; either way the value is stored
   * whenever the call reports success.
   */
  lemma InsertOrUpdate(store: Store, value: string, add: AddStatus, update: UpdateStatus)
    requires AddCoherent(store, add) && !add.AddFailed?
    ensures Slot !in store.items ==> SetAPIKey(store, value, add, update).ok
    ensures Slot in store.items ==>
      (SetAPIKey(store, value, add, update).ok <==> update.UpdateSuccess?)
    ensures Slot in store.items ==> SetAPIKey(store, value, add, update).updateAttempted
  {
  }
}

=== FILE: models.dfy ===
/**
 * The server entities and request payloads the API package exchanges, and the
 * fixture values its mock builders produce. These are plain records; dates use
 * the instant type of the date layer, and "now" is a parameter because the
 * builders read the clock.
 */
module Models {
  import opened Wrappers
  import opened DateFormat

  datatype DeviceBLE = DeviceBLE(address: string, width: int, height: int)

  datatype DeviceShadow = DeviceShadow(
    currentImageAssetId: Option<string>,
    isFlashing: bool,
    lastSuccessfulActionAt: Option<DateTime>,
    lastSeenAt: Option<DateTime>,
    lastError: Option<DateTime>)

  datatype DeviceDTO = DeviceDTO(
    id: string,
    homeId: string,
    ownerUserId: string,
    name: string,
    ble: DeviceBLE,
    shadow: DeviceShadow,
    createdAt: DateTime,
    updatedAt: DateTime)

  datatype UserDTO = UserDTO(
    id: string,
    name: string,
    homeId: string,
    isActive: bool,
    apiKey: Option<string>,
    devices: seq<DeviceDTO>)

  datatype HomeDTO = HomeDTO(
    id: string,
    name: string,
    isPrivate: bool,
    joinCode: Option<string>,
    users: seq<UserDTO>)

  /** The reply of the messaging endpoints. */
  datatype MessageResponse = MessageResponse(accepted: bool)

  datatype RegisterDeviceRequest = RegisterDeviceRequest(address: string, name: string, width: int, height: int)

  datatype CreateUserRequest = CreateUserRequest(name: string, homeId: string)

  // ---------------------------------------------------------------------------
  // Mock builders: the default record of each builder, customised by record update

  /** `DeviceDTOMockBuilder()` before any `with…` call. */
  function DefaultDevice(now: DateTime): DeviceDTO {
    DeviceDTO(
      id := "111111111111111",
      homeId := "1",
      ownerUserId := "2",
      name := "Tom's Label",
      ble := DeviceBLE("FF:FF:16:64:0B:B6", 400, 300),
      shadow := DeviceShadow(None, false, None, None, None),
      createdAt := now,
      updatedAt := now)
  }

  /** `HomeDTOMockBuilder().build()`. */
  const DefaultHome: HomeDTO :=
    HomeDTO("111111111111111", "Mock Home", true, Some("XXXXXX"), [])

  /** `UserDTOMockBuilder().build()`. */
  const DefaultUser: UserDTO :=
    UserDTO("2222", "Mock User", "111111111111111", true, None, [])
}

=== FILE: otp.dfy ===
/**
 * `OTPPassView`: a six-cell one-time-code field. Every edit is normalised
 * (spaces removed, at most six characters kept), each cell shows the character
 * at its index, the border colour follows the verdict of the caller's check,
 * and the verdict toggles one of two feedback triggers.
 */
module Otp {
  import opened Wrappers

  datatype TypingState = Typing | Valid | Invalid

  datatype Colour = Primary | Gray | Red | Green

  /** The number of cells the view renders, indices 0 to 5. */
  const CellCount := 6

  /** `replacingOccurrences(of: " ", with: "")`. */
  function RemoveSpaces(s: string): (r: string)
    ensures ' ' !in r
    ensures |r| <= |s|
    ensures forall c :: c != ' ' ==> multiset(r)[c] == multiset(s)[c]
  {
    if |s| == 0 then ""
    else
      assert s == [s[0]] + s[1..];
      if s[0] == ' ' then RemoveSpaces(s[1..]) else [s[0]] + RemoveSpaces(s[1..])
  }

  lemma {:induction false} RemoveSpacesNoSpace(s: string)
    requires ' ' !in s
    ensures RemoveSpaces(s) == s
  {
    if |s| > 0 {
      assert ' ' !in s[1..];
      RemoveSpacesNoSpace(s[1..]);
      assert [s[0]] + s[1..] == s;
    }
  }

  /** Removing spaces works piece by piece, so the order of the other characters is kept. */
  lemma {:induction false} RemoveSpacesAppend(a: string, b: string)
    ensures RemoveSpaces(a + b) == RemoveSpaces(a) + RemoveSpaces(b)
  {
    if |a| == 0 {
      assert a + b == b;
    } else {
      assert (a + b)[0] == a[0] && (a + b)[1..] == a[1..] + b;
      RemoveSpacesAppend(a[1..], b);
    }
  }

  /** On one character: a space disappears, anything else stays. */
  lemma RemoveSpacesSingle(c: char)
    ensures RemoveSpaces([c]) == if c == ' ' then "" else [c]
  {
    assert [c][1..] == "";
  }

  function Min(a: int, b: int): int {
    if a <= b then a else b
  }

  /** The `onChange` normalisation: drop every space, then keep the first six characters. */
  function Normalize(s: string): (r: string)
    ensures ' ' !in r && |r| <= CellCount
    ensures |r| == Min(CellCount, |RemoveSpaces(s)|)
    ensures forall i :: 0 <= i < |r| ==> r[i] == RemoveSpaces(s)[i]
  {
    var t := RemoveSpaces(s);
    if |t| <= CellCount then t else t[..CellCount]
  }

  /** Normalising an already normalised value changes nothing. */
  lemma NormalizeIdempotent(s: string)
    ensures Normalize(Normalize(s)) == Normalize(s)
  {
    RemoveSpacesNoSpace(Normalize(s));
  }

  /** `value(for:)`: the character of the cell, if the value is that long. */
  function ValueFor(value: string, index: int): (r: Option<char>)
    requires 0 <= index
    ensures r.Some? <==> index < |value|
    ensures r.Some? ==> r.value == value[index]
  {
    if |value| > index then Some(value[index]) else None
  }

  /** Every character of a normalised value lands in one of the six rendered cells. */
  lemma EveryCharacterHasACell(s: string, i: int)
    requires 0 <= i < |Normalize(s)|
    ensures i < CellCount && ValueFor(Normalize(s), i) == Some(Normalize(s)[i])
  {
  }

  /** `borderColour(index:)`: the verdict decides, and while typing a full focused field is primary. */
  function BorderColour(state: TypingState, value: string, focused: bool): (c: Colour)
    ensures c == Red <==> state == Invalid
    ensures c == Green <==> state == Valid
    ensures c == Primary <==> state == Typing && |value| == CellCount && focused
    ensures c == Gray <==> state == Typing && !(|value| == CellCount && focused)
  {
    match state
    case Typing => if |value| == 6 && focused then Primary else Gray
    case Invalid => Red
    case Valid => Green
  }

  datatype Triggers = Triggers(invalid: bool, success: bool, input: bool)

  /** The view's state between edits. */
  datatype View = View(value: string, state: TypingState, triggers: Triggers)

  /**
   * `onChange(of: value)`: the bound value becomes its normalisation, the
   * caller's verdict on it becomes the state, and an invalid verdict toggles
   * only the error trigger, a valid one only the success trigger.
   */
  function OnChange(v: View, newValue: string, verdict: TypingState): (r: View)
    ensures r.value == Normalize(newValue) && r.state == verdict
    ensures r.triggers.invalid != v.triggers.invalid <==> verdict == Invalid
    ensures r.triggers.success != v.triggers.success <==> verdict == Valid
    ensures r.triggers.input == v.triggers.input
  {
    var value := Normalize(newValue);
    var triggers :=
      if verdict == Invalid then v.triggers.(invalid := !v.triggers.invalid)
      else if verdict == Valid then v.triggers.(success := !v.triggers.success)
      else v.triggers;
    View(value, verdict, triggers)
  }

  /** Writing the normalised value back re-runs `onChange`, which leaves the value as it is. */
  lemma ReentrantChangeIsStable(v: View, newValue: string, verdict: TypingState, again: TypingState)
    ensures OnChange(OnChange(v, newValue, verdict), OnChange(v, newValue, verdict).value, again).value
         == OnChange(v, newValue, verdict).value
  {
    NormalizeIdempotent(newValue);
  }
}

=== FILE: paths.dfy ===
/**
 * Relative request paths read as `/`-separated segments. The endpoint layer
 * interpolates caller values into paths verbatim; splitting recovers them only
 * when they hold no `/` themselves.
 */
module Paths {

  predicate NoSlash(s: string) {
    '/' !in s
  }

  /** The segments of `s` between its slashes (a leading slash gives an empty first segment). */
  function Split(s: string): (r: seq<string>)
    ensures |r| >= 1
    ensures forall i :: 0 <= i < |r| ==> NoSlash(r[i])
  {
    if |s| == 0 then [""]
    else
      var rest := Split(s[1..]);
      if s[0] == '/' then [""] + rest
      else [[s[0]] + rest[0]] + rest[1..]
  }

  /** The segments put back together with `/` between them. */
  function Join(segs: seq<string>): string
    requires |segs| >= 1
  {
    if |segs| == 1 then segs[0] else segs[0] + "/" + Join(segs[1..])
  }

  lemma {:induction false} SplitSingle(a: string)
    requires NoSlash(a)
    ensures Split(a) == [a]
  {
    if |a| > 0 {
      assert NoSlash(a[1..]);
      SplitSingle(a[1..]);
      assert [a[0]] + a[1..] == a;
    }
  }

  lemma {:induction false} SplitCons(a: string, t: string)
    requires NoSlash(a)
    ensures Split(a + "/" + t) == [a] + Split(t)
  {
    var s := a + "/" + t;
    if |a| == 0 {
      assert s[0] == '/' && s[1..] == t;
    } else {
      assert s[0] == a[0] && s[1..] == a[1..] + "/" + t;
      assert NoSlash(a[1..]);
      SplitCons(a[1..], t);
      assert [a[0]] + a[1..] == a;
    }
  }

  /** Splitting undoes joining slash-free segments. */
  lemma {:induction false} SplitJoin(segs: seq<string>)
    requires |segs| >= 1
    requires forall i :: 0 <= i < |segs| ==> NoSlash(segs[i])
    ensures Split(Join(segs)) == segs
  {
    if |segs| == 1 {
      SplitSingle(segs[0]);
    } else {
      SplitCons(segs[0], Join(segs[1..]));
      SplitJoin(segs[1..]);
      assert [segs[0]] + segs[1..] == segs;
    }
  }

  /** Joining undoes splitting, for every string. */
  lemma {:induction false} JoinSplit(s: string)
    ensures Join(Split(s)) == s
  {
    if |s| > 0 {
      var rest := Split(s[1..]);
      JoinSplit(s[1..]);
      if s[0] == '/' {
        assert Join([""] + rest) == "" + "/" + Join(rest);
        assert s == "/" + s[1..];
      } else {
        var r := [[s[0]] + rest[0]] + rest[1..];
        if |rest| == 1 {
          assert Join(r) == [s[0]] + rest[0];
        } else {
          assert r[1..] == rest[1..];
          assert Join(rest) == rest[0] + "/" + Join(rest[1..]);
          assert Join(r) == ([s[0]] + rest[0]) + "/" + Join(rest[1..]);
        }
        assert s == [s[0]] + s[1..];
      }
    }
  }
}

=== FILE: push_registration.dfy ===
/**
 * `PushRegistrationManager`: keeps the notification authorisation state and
 * tells the API about it (and about the device token) only when either has
 * changed since the last successful report. The last report is remembered in
 * user defaults under two keys. The notification centre, the application's
 * remote-notification registration and the API post are inputs: their
 * answers are parameters, and the model records what is posted and whether
 * registration is requested.
 */
module PushRegistration {
  import opened Wrappers

  datatype AuthState = NotDetermined | Denied | Authorized | Provisional | Ephemeral | Unknown

  /** The enum's `String` raw value, as stored in user defaults. */
  function RawValue(a: AuthState): string {
    match a
    case NotDetermined => "notDetermined"
    case Denied => "denied"
    case Authorized => "authorized"
    case Provisional => "provisional"
    case Ephemeral => "ephemeral"
    case Unknown => "unknown"
  }

  /** `AuthState(rawValue:)`: nil for any string that is not a raw value. */
  function ParseAuthState(raw: string): (r: Option<AuthState>)
    ensures r.Some? ==> RawValue(r.value) == raw
  {
    if raw == "notDetermined" then Some(NotDetermined)
    else if raw == "denied" then Some(Denied)
    else if raw == "authorized" then Some(Authorized)
    else if raw == "provisional" then Some(Provisional)
    else if raw == "ephemeral" then Some(Ephemeral)
    else if raw == "unknown" then Some(Unknown)
    else None
  }

  /** Every state survives being stored and read back. */
  lemma ParseRawValue(a: AuthState)
    ensures ParseAuthState(RawValue(a)) == Some(a)
  {
  }

  /** A string is accepted exactly when it is the raw value of some state. */
  lemma ParseAcceptsOnlyRawValues(raw: string)
    ensures ParseAuthState(raw).Some? <==> exists a: AuthState :: RawValue(a) == raw
  {
    if exists a: AuthState :: RawValue(a) == raw {
      var a: AuthState :| RawValue(a) == raw;
      ParseRawValue(a);
    }
  }

  const LastSentTokenKey := "push.lastSentToken"
  const LastSentAuthKey := "push.lastSentAuth"

  /** The string values of user defaults. */
  datatype Defaults = Defaults(values: map<string, string>)

  /** `lastSentAuthState()`: the stored state, or unknown when nothing readable is stored. */
  function LastSentAuthState(d: Defaults): (r: AuthState)
    ensures LastSentAuthKey in d.values && ParseAuthState(d.values[LastSentAuthKey]).Some? ==>
      r == ParseAuthState(d.values[LastSentAuthKey]).value
    ensures LastSentAuthKey !in d.values || ParseAuthState(d.values[LastSentAuthKey]).None? ==> r == Unknown
  {
    if LastSentAuthKey in d.values then ParseAuthState(d.values[LastSentAuthKey]).GetOr(Unknown) else Unknown
  }

  /** `lastSentToken()`. */
  function LastSentToken(d: Defaults): (r: Option<string>)
    ensures r.Some? <==> LastSentTokenKey in d.values
    ensures r.Some? ==> r.value == d.values[LastSentTokenKey]
  {
    if LastSentTokenKey in d.values then Some(d.values[LastSentTokenKey]) else None
  }

  /** `setLastSent`: the state is always stored; the token only when there is one. */
  function SetLastSent(d: Defaults, auth: AuthState, token: Option<string>): (r: Defaults)
    ensures LastSentAuthState(r) == auth
    ensures LastSentToken(r) == if token.Some? then token else LastSentToken(d)
    ensures forall k :: k != LastSentAuthKey && k != LastSentTokenKey ==>
      (k in r.values <==> k in d.values) && (k in d.values ==> r.values[k] == d.values[k])
  {
    ParseRawValue(auth);
    var withAuth := d.values[LastSentAuthKey := RawValue(auth)];
    Defaults(if token.Some? then withAuth[LastSentTokenKey := token.value] else withAuth)
  }

  /** The body of the `registerApns` post. */
  datatype ApnsRegistration = ApnsRegistration(token: string, name: string)

  /** The manager's state: the published authorisation state and user defaults. */
  datatype Manager = Manager(authState: AuthState, defaults: Defaults)

  /** The outcome of one entry point: the new state, what was posted, whether registration was requested. */
  datatype Step = Step(manager: Manager, posted: Option<ApnsRegistration>, registers: bool)

  /** The report is due when the state changed or a token is given that differs from the stored one. */
  predicate ReportDue(d: Defaults, token: Option<string>, auth: AuthState) {
    auth != LastSentAuthState(d) || (token.Some? && token != LastSentToken(d))
  }

  /**
   * `sendToApiIfNeeded`: with a client and a due report, posts the token (empty
   * when nil) and the device name; the report is recorded only when the post
   * succeeds, so a failed post is retried next time.
   */
  function SendToApiIfNeeded(d: Defaults, token: Option<string>, auth: AuthState,
                             apiPresent: bool, deviceName: string, postOk: bool): (r: (Defaults, Option<ApnsRegistration>))
    ensures r.1.Some? <==> apiPresent && ReportDue(d, token, auth)
    ensures r.1.Some? ==> r.1.value == ApnsRegistration(token.GetOr(""), deviceName)
    ensures r.1.Some? && postOk ==> LastSentAuthState(r.0) == auth && !ReportDue(r.0, token, auth)
    ensures r.1.Some? && postOk ==> r.0 == SetLastSent(d, auth, token)
    ensures !(r.1.Some? && postOk) ==> r.0 == d
  {
    if !apiPresent || !ReportDue(d, token, auth) then (d, None)
    else
      var posted := Some(ApnsRegistration(token.GetOr(""), deviceName));
      if postOk then (SetLastSent(d, auth, token), posted) else (d, posted)
  }

  /** Once a report succeeded, the same report is not due and repeating it posts nothing. */
  lemma RepeatAfterSuccessIsSilent(d: Defaults, token: Option<string>, auth: AuthState,
                                   deviceName: string, postOk: bool, againOk: bool)
    requires SendToApiIfNeeded(d, token, auth, true, deviceName, postOk).1.Some? && postOk
    ensures var d' := SendToApiIfNeeded(d, token, auth, true, deviceName, postOk).0;
      SendToApiIfNeeded(d', token, auth, true, deviceName, againOk) == (d', None)
  {
  }

  /** The states for which the app asks to be registered for remote notifications. */
  predicate MayRegister(a: AuthState) {
    a == Authorized || a == Provisional || a == Ephemeral
  }

  /**
   * `refreshAndRegisterIfNeeded`: publishes the current state, reports it
   * when it differs from the last report, and requests registration when the
   * state allows notifications.
   */
  function Refresh(m: Manager, current: AuthState, deviceName: string, postOk: bool): (r: Step)
    ensures r.manager.authState == current
    ensures r.registers <==> MayRegister(current)
    ensures r.posted.Some? <==> current != LastSentAuthState(m.defaults)
    ensures r.posted.Some? ==> r.posted.value == ApnsRegistration("", deviceName)
    ensures r.posted.Some? && postOk ==> r.manager.defaults == SetLastSent(m.defaults, current, None)
    ensures !(r.posted.Some? && postOk) ==> r.manager.defaults == m.defaults
  {
    var (defaults, posted) :=
      if current != LastSentAuthState(m.defaults) then SendToApiIfNeeded(m.defaults, None, current, true, deviceName, postOk)
      else (m.defaults, None);
    Step(Manager(current, defaults), posted, MayRegister(current))
  }

  /** The outer state comparison in `Refresh` is redundant: the call without a token already checks it. */
  lemma RefreshGuardIsRedundant(m: Manager, current: AuthState, deviceName: string, postOk: bool)
    ensures var r := Refresh(m, current, deviceName, postOk);
      (r.manager.defaults, r.posted) == SendToApiIfNeeded(m.defaults, None, current, true, deviceName, postOk)
  {
  }

  /** `didReceiveDeviceToken`: publishes the current state and reports the token when due. */
  function DidReceiveDeviceToken(m: Manager, token: string, current: AuthState,
                                 apiPresent: bool, deviceName: string, postOk: bool): (r: Step)
    ensures r.manager.authState == current && !r.registers
    ensures r.posted.Some? <==> apiPresent && ReportDue(m.defaults, Some(token), current)
    ensures r.posted.Some? ==> r.posted.value.token == token
    ensures r.posted.Some? && postOk ==> LastSentToken(r.manager.defaults) == Some(token)
    ensures (r.manager.defaults, r.posted) == SendToApiIfNeeded(m.defaults, Some(token), current, apiPresent, deviceName, postOk)
  {
    var (defaults, posted) := SendToApiIfNeeded(m.defaults, Some(token), current, apiPresent, deviceName, postOk);
    Step(Manager(current, defaults), posted, false)
  }

  /** A new token is reported even when the authorisation state has not changed. */
  lemma NewTokenIsReported(m: Manager, token: string, deviceName: string, postOk: bool)
    requires LastSentToken(m.defaults) != Some(token)
    ensures DidReceiveDeviceToken(m, token, LastSentAuthState(m.defaults), true, deviceName, postOk).posted
         == Some(ApnsRegistration(token, deviceName))
  {
  }

  /**
   * `requestPermission`: `status` is the centre's setting when the call
   * starts (unknown for a status this code does not know), `granted` the
   * answer to the authorisation prompt (None when it throws) and `after` the
   * state read once the prompt or check is done. Every path that goes on
   * publishes `after` and reports it through `SendToApiIfNeeded` without a token.
   */
  function RequestPermission(m: Manager, status: AuthState, granted: Option<bool>, after: AuthState,
                             deviceName: string, postOk: bool): (r: Step)
    ensures r.registers <==> MayRegister(status) || (status == NotDetermined && granted == Some(true))
    ensures status == Unknown || (status == NotDetermined && granted.None?) ==> r == Step(m, None, false)
    ensures !(status == Unknown || (status == NotDetermined && granted.None?)) ==>
      r.manager.authState == after &&
      (r.manager.defaults, r.posted) == SendToApiIfNeeded(m.defaults, None, after, true, deviceName, postOk)
    ensures r.posted.Some? ==> r.posted.value.token == ""
  {
    match status
    case NotDetermined =>
      if granted.None? then Step(m, None, false)
      else
        var (defaults, posted) := SendToApiIfNeeded(m.defaults, None, after, true, deviceName, postOk);
        Step(Manager(after, defaults), posted, granted.value)
    case Authorized =>
      var (defaults, posted) := SendToApiIfNeeded(m.defaults, None, after, true, deviceName, postOk);
      Step(Manager(after, defaults), posted, true)
    case Provisional =>
      var (defaults, posted) := SendToApiIfNeeded(m.defaults, None, after, true, deviceName, postOk);
      Step(Manager(after, defaults), posted, true)
    case Ephemeral =>
      var (defaults, posted) := SendToApiIfNeeded(m.defaults, None, after, true, deviceName, postOk);
      Step(Manager(after, defaults), posted, true)
    case Denied =>
      var (defaults, posted) := SendToApiIfNeeded(m.defaults, None, after, true, deviceName, postOk);
      Step(Manager(after, defaults), posted, false)
    case Unknown => Step(m, None, false)
  }

  /** A prompt that answers reports the state read afterwards exactly when it differs from the last report. */
  lemma AnsweredPromptReportsChange(m: Manager, answer: bool, after: AuthState, deviceName: string, postOk: bool)
    ensures var r := RequestPermission(m, NotDetermined, Some(answer), after, deviceName, postOk);
      r.registers == answer && r.manager.authState == after &&
      (r.posted.Some? <==> after != LastSentAuthState(m.defaults)) &&
      (r.posted.Some? && postOk ==> LastSentAuthState(r.manager.defaults) == after)
  {
  }
}

=== FILE: register_device.dfy ===
/**
 * `RegisterDeviceSheet`: the scanned barcode becomes a colon-separated BLE
 * address, the selected device type picks the display size, and `register()`
 * validates the form before posting `Devices.register`.
 */
module RegisterDevice {
  import opened Wrappers
  import opened Endpoints

  datatype DeviceType = Small | Medium | Large

  datatype Size = Size(width: int, height: int)

  // ---------------------------------------------------------------------------
  // Address assembly

  /** Consecutive two-character pieces of `s`; the last is one character when `|s|` is odd. */
  function Chunks(s: string): (r: seq<string>)
    ensures |r| == (|s| + 1) / 2
    ensures forall i :: 0 <= i < |r| ==> 1 <= |r[i]| <= 2
    ensures forall i :: 0 <= i < |r| - 1 ==> |r[i]| == 2
  {
    if |s| == 0 then []
    else if |s| <= 2 then [s]
    else [s[..2]] + Chunks(s[2..])
  }

  /** The pieces written one after another. */
  function Flatten(c: seq<string>): string {
    if |c| == 0 then "" else c[0] + Flatten(c[1..])
  }

  /** `joined(separator:)`. */
  function JoinWith(c: seq<string>, sep: string): string {
    if |c| == 0 then ""
    else if |c| == 1 then c[0]
    else c[0] + sep + JoinWith(c[1..], sep)
  }

  /** The input in two-character pieces joined by colons. */
  function Colonise(s: string): string {
    JoinWith(Chunks(s), ":")
  }

  /** `insertColonsEveryTwoCharacters`: collects the pieces in a loop, then joins them. */
  method InsertColonsEveryTwoCharacters(input: string) returns (output: string)
    ensures output == Colonise(input)
  {
    var result: seq<string> := [];
    var index := 0;
    while index < |input|
      invariant 0 <= index <= |input|
      invariant result + Chunks(input[index..]) == Chunks(input)
    {
      var next := if index + 2 <= |input| then index + 2 else |input|;
      var rest := input[index..];
      if |rest| > 2 {
        assert rest[..2] == input[index..next] && rest[2..] == input[next..];
      } else {
        assert rest == input[index..next] && input[next..] == [];
      }
      result := result + [input[index..next]];
      index := next;
    }
    assert input[index..] == [];
    assert result + [] == result;
    assert result == Chunks(input);
    output := JoinWith(result, ":");
  }

  /** The pieces put back together are the input. */
  lemma {:induction false} FlattenChunks(s: string)
    ensures Flatten(Chunks(s)) == s
  {
    if |s| > 2 {
      FlattenChunks(s[2..]);
      assert s == s[..2] + s[2..];
    } else if |s| > 0 {
      assert Flatten([s]) == s + Flatten([]);
    }
  }

  function RemoveColons(s: string): (r: string)
    ensures ':' !in r
  {
    if |s| == 0 then ""
    else if s[0] == ':' then RemoveColons(s[1..])
    else [s[0]] + RemoveColons(s[1..])
  }

  lemma {:induction false} RemoveColonsAppend(a: string, b: string)
    ensures RemoveColons(a + b) == RemoveColons(a) + RemoveColons(b)
  {
    if |a| == 0 {
      assert a + b == b;
    } else {
      assert (a + b)[0] == a[0] && (a + b)[1..] == a[1..] + b;
      RemoveColonsAppend(a[1..], b);
    }
  }

  lemma {:induction false} RemoveColonsNone(s: string)
    requires ':' !in s
    ensures RemoveColons(s) == s
  {
    if |s| > 0 {
      assert ':' !in s[1..];
      RemoveColonsNone(s[1..]);
      assert [s[0]] + s[1..] == s;
    }
  }

  /** Deleting the colons from the colonised form recovers a colon-free input. */
  lemma {:induction false} ColonsRemovable(s: string)
    requires ':' !in s
    ensures RemoveColons(Colonise(s)) == s
  {
    if |s| > 2 {
      var c := Chunks(s);
      assert c == [s[..2]] + Chunks(s[2..]);
      assert c[1..] == Chunks(s[2..]);
      assert Colonise(s) == s[..2] + ":" + Colonise(s[2..]);
      assert ':' !in s[2..] && ':' !in s[..2];
      ColonsRemovable(s[2..]);
      RemoveColonsAppend(s[..2] + ":", Colonise(s[2..]));
      RemoveColonsAppend(s[..2], ":");
      RemoveColonsNone(s[..2]);
      assert RemoveColons(":") == "";
      assert s[..2] + s[2..] == s;
    } else if |s| > 0 {
      assert Colonise(s) == s;
      RemoveColonsNone(s);
    }
  }

  /** Empty input gives empty output; `n >= 1` characters give `n + ceil(n / 2) - 1`. */
  lemma {:induction false} ColoniseLength(s: string)
    ensures |s| == 0 ==> Colonise(s) == ""
    ensures |s| >= 1 ==> |Colonise(s)| == |s| + (|s| + 1) / 2 - 1
  {
    if |s| > 2 {
      var c := Chunks(s);
      assert c[1..] == Chunks(s[2..]);
      assert Colonise(s) == s[..2] + ":" + Colonise(s[2..]);
      ColoniseLength(s[2..]);
    } else if |s| > 0 {
      assert Colonise(s) == s;
    }
  }

  const AddressPrefix := "66:66:"

  /** The address the scanner callback stores for a scanned code. */
  function AssembleAddress(code: string): string {
    AddressPrefix + Colonise(code)
  }

  /** The assembled address has the 17 characters validation demands exactly when the code has 8. */
  lemma AddressLengthIff(code: string)
    ensures |AssembleAddress(code)| == 17 <==> |code| == 8
  {
    ColoniseLength(code);
  }

  // ---------------------------------------------------------------------------
  // Sizing and validation

  /** `sizing(for:)`: small and medium share the 296 by 128 panel; large is 400 by 300. */
  function Sizing(t: DeviceType): (r: Size)
    ensures t != Large <==> r == Size(296, 128)
    ensures t == Large <==> r == Size(400, 300)
  {
    match t
    case Small => Size(296, 128)
    case Medium => Size(296, 128)
    case Large => Size(400, 300)
  }

  const AddressMessage := "Please scan the device's barcode to set it's address"
  const TypeMessage := "Please select a device type"
  const NameMessage := "Please enter a name for the device"
  const FailureMessage := "Couldn't register this device - have you already registered it?"

  /** The sheet's state. */
  datatype Sheet = Sheet(
    selectedType: Option<DeviceType>,
    name: string,
    address: Option<string>,
    loading: bool,
    error: Option<string>,
    showError: bool,
    showScanner: bool,
    dismissed: bool)

  /** The sheet as it opens: the small type preselected, no name, no address, no error. */
  const Opened := Sheet(Some(Small), "", None, false, None, false, false, false)

  predicate AddressOk(s: Sheet) {
    s.address.Some? && |s.address.value| == 17
  }

  /** The messages of the failing checks, in the order `register()` runs them. */
  function FailingChecks(s: Sheet): seq<string> {
    (if !AddressOk(s) then [AddressMessage] else [])
    + (if s.selectedType.None? then [TypeMessage] else [])
    + (if s.name == "" then [NameMessage] else [])
  }

  /** The three checks in order, each overwriting `error` when it fails. */
  function Validate(s: Sheet): (r: Option<string>)
    ensures |FailingChecks(s)| > 0 ==> r == Some(FailingChecks(s)[|FailingChecks(s)| - 1])
    ensures |FailingChecks(s)| == 0 ==> r == s.error
  {
    var afterAddress := if s.address.None? || |s.address.value| != 17 then Some(AddressMessage) else s.error;
    var afterType := if s.selectedType.None? then Some(TypeMessage) else afterAddress;
    if s.name == "" then Some(NameMessage) else afterType
  }

  /** How the post of `Devices.register` ended. */
  datatype PostOutcome = Posted | PostThrew

  datatype RegisterStep = RegisterStep(sheet: Sheet, request: Option<Endpoint>)

  /**
   * `register()`: validation first; with any error set (new or left from
   * earlier) it shows the alert and returns before posting; otherwise it posts
   * the scanned address, the name and the type's size, dismissing on success
   * and reporting the failure message otherwise. `loading` is false on exit.
   */
  function Register(s: Sheet, outcome: PostOutcome): (r: RegisterStep)
    ensures !r.sheet.loading
    ensures r.request.Some? <==> s.error.None? && |FailingChecks(s)| == 0
    ensures r.request.Some? ==>
      r.request.value == DevicesEndpoint(Devices.Register(
        s.address.value, s.name, Sizing(s.selectedType.value).width, Sizing(s.selectedType.value).height))
    ensures r.request.None? ==> r.sheet.error == Validate(s) && r.sheet.error.Some? && r.sheet.showError
    ensures r.request.None? ==> r.sheet.dismissed == s.dismissed
    ensures r.request.Some? && outcome == PostThrew ==>
      r.sheet.error == Some(FailureMessage) && r.sheet.showError && r.sheet.dismissed == s.dismissed
    ensures r.request.Some? && outcome == Posted ==> r.sheet.error.None? && r.sheet.dismissed
    ensures s.error.Some? ==> r.sheet.error.Some?
    ensures r.sheet.dismissed <==> s.dismissed || (r.request.Some? && outcome == Posted)
    ensures r.sheet.name == s.name && r.sheet.address == s.address && r.sheet.selectedType == s.selectedType
  {
    var error := Validate(s);
    if error.Some? then
      RegisterStep(s.(loading := false, error := error, showError := true), None)
    else
      var size := Sizing(s.selectedType.GetOr(Small));
      var request := DevicesEndpoint(Devices.Register(s.address.GetOr(""), s.name, size.width, size.height));
      match outcome
      case Posted => RegisterStep(s.(loading := false, dismissed := true), Some(request))
      case PostThrew =>
        RegisterStep(s.(loading := false, error := Some(FailureMessage), showError := true), Some(request))
  }

  /** `error` is never reset, so after any failure every later `register()` returns before posting. */
  lemma ErrorIsSticky(s: Sheet, first: PostOutcome, later: PostOutcome)
    requires Register(s, first).sheet.error.Some?
    ensures Register(Register(s, first).sheet, later).request.None?
  {
  }

  /** The scanner callback: the address is stored and the scanner closed. */
  function Scanned(s: Sheet, code: string): (r: Sheet)
    ensures r.address == Some(AssembleAddress(code)) && !r.showScanner
  {
    s.(showScanner := false, address := Some(AssembleAddress(code)))
  }

  /** A fresh form with an eight-character code, a type and a name posts that address. */
  lemma EightCharacterScanRegisters(s: Sheet, code: string, outcome: PostOutcome)
    requires |code| == 8 && s.error.None? && s.selectedType.Some? && s.name != ""
    ensures var r := Register(Scanned(s, code), outcome);
      r.request.Some? && r.request.value.devices.address == AddressPrefix + Colonise(code)
  {
    AddressLengthIff(code);
  }

  /** Registering straight away posts nothing and reports the name, the last of the two failing checks. */
  lemma RegisterUnfilledSheet(outcome: PostOutcome)
    ensures Register(Opened, outcome).request.None?
    ensures Register(Opened, outcome).sheet.error == Some(NameMessage)
  {
    assert FailingChecks(Opened) == [AddressMessage, NameMessage];
  }
}

=== FILE: wrappers.dfy ===
/** Optional values and success/failure results shared by every module of the model. */
module Wrappers {

  /** Swift's `Optional`: `nil` is `None`. */
  datatype Option<+T> = None | Some(value: T) {

    /** The `??` operator: the wrapped value, or `default` for `None`. */
    function GetOr(default: T): T {
      match this
      case Some(v) => v
      case None => default
    }
  }

  /** A call that either returns a value or throws an error. */
  datatype Result<+R, +E> = Success(value: R) | Failure(error: E) {

    function ToOption(): Option<R> {
      match this
      case Success(v) => Some(v)
      case Failure(_) => None
    }
  }
}
